=== FILE: README.md ===
# A Dafny model of the chip8emulator core

This project models the parts of the Python CHIP-8 emulator `chip8emulator`
that carry logic:

- **Value types.** `Nibble`, `Byte` and `Word` hold 4, 8 and 16 bits.
  - Their constructors mask the value.
  - Addition wraps around.
  - Subtraction is the absolute difference.
  - `Byte` adds `&`, the shifts, `abs` and a total order.
- **Opcodes.**
  - The `OPCODE` enumeration and its `repr`.
  - The byte and nibble getters that pick an opcode word apart.
  - `decode`, including the second `match` that catches every opcode the first one lets through.
- **Memory.** A list of byte cells whose address check lets the address equal to the size through.
- **Keypad.** It remembers the key pressed last. It checks a key with a substring test.
- **Processor.**
  - The `Registry` register file and its register-name translation.
  - `reset` and `fetch_opcode`.
  - The opcode handlers the emulator implements: ANNN, 000E, 1NNN, 2NNN, 3NNN, 4NNN, 5XY0 and 6XNN.
  - `update_timers`.

The model follows the code as written, quirks included:

- a call followed by a return does not come back after the call;
- a skip that is not taken leaves the program counter where it was;
- `6XNN` does not move the program counter;
- `reset` assigns a second register file (`registries`) that no handler reads.

Every mutating Python method becomes a pure function from one state to the
next. A call that can raise returns a `Result`, which is either `Ok(value)`
or `Raise(exception)`. Python's `&`, `|`, `>>` and `<<` on integers are
defined in module `Bits`, and lemmas there relate them to `%` and `/`:

- `AndNat` is the bitwise and of a natural number with any integer, in two's complement.
- `OrNat` is the bitwise or of two natural numbers.
- `ShiftLeft` and `ShiftRight` are multiplication and floor division by powers of two.

Module layout:

- `Python`: exceptions, `Result` and `Option`, dynamically typed `int`/`str` arguments, and list indexing with negative indices.
- `Bits`: the bit operations.
- `Strings`: `in`, `upper`, `lower`, `isdigit` and `int` on ASCII strings.
- `Nibbles`, `Bytes`, `Words`: the value types.
- `Opcodes`, `Decoder`: the opcode enumeration, the getters and `decode`.
- `Memories`, `Keypads`: memory and keypad.
- `Registries`, `Processors`: `Registry` and `Processor` of `processor.py`.

## Model

| member | source | states |
|---|---|---|
| Nibbles.Of | chip8emulator/types/nibble.py:20 | A nibble keeps the value modulo 16; a value already in 0..15 is kept unchanged |
| Nibbles.Str | chip8emulator/types/nibble.py:22-23 | `str` is a single character, and that character is the hexadecimal digit whose value is the nibble |
| Nibbles.StrExamples | tests/test_nibble.py:6-17 | 0, 1, 7 and 15 print as "0", "1", "7" and "F" |
| Nibbles.Add | chip8emulator/types/nibble.py:25-32 | Addition with an int or a nibble operand wraps modulo 16 |
| Nibbles.RAdd | chip8emulator/types/nibble.py:34-35 | `other + nibble` is `(other + nibble) % 16`, what the delegation to `__add__` computes |
| Nibbles.Sub | chip8emulator/types/nibble.py:37-44 | Subtraction is the absolute difference, modulo 16 |
| Nibbles.RSub | chip8emulator/types/nibble.py:46-47 | `other - nibble` is `abs(other - nibble) % 16`: the delegation to `__sub__` gives the absolute difference either way round |
| Nibbles.AddCommutes | chip8emulator/types/nibble.py:25-35 | The order of the operands does not change the sum |
| Nibbles.AddExamples | tests/test_nibble.py:20-34 | 1+2=3, 7+8=15, 15+1 wraps to 0, and int + nibble adds |
| Nibbles.SubSymmetric | chip8emulator/types/nibble.py:37-47 | a-b equals b-a, and it is zero exactly when a equals b |
| Nibbles.SubExamples | tests/test_nibble.py:37-50 | 1-2 and 2-1 are both 1, with the int on either side |
| Nibbles.Eq | chip8emulator/types/nibble.py:49-56 | A nibble equals an int exactly when the int lies in 0..15 and builds that nibble |
| Nibbles.EqAfterConstruction | chip8emulator/types/nibble.py:49-56 | A nibble built from an int equals that int exactly when the int lies in 0..15 |
| Bytes.Of | chip8emulator/types/byte.py:32 | A byte keeps the value modulo 256; a value already in 0..255 is kept unchanged |
| Bytes.OfMasked | chip8emulator/types/byte.py:58 | Masking before the constructor still gives the value modulo 256 |
| Bytes.HighNibble | chip8emulator/types/byte.py:34-35 | The high nibble is the byte divided by 16 |
| Bytes.LowNibble | chip8emulator/types/byte.py:37-38 | The low nibble is the byte modulo 16 |
| Bytes.NibbleSplit | chip8emulator/types/byte.py:34-38 | 16 times the high nibble plus the low nibble gives back the byte |
| Bytes.NibbleExample | tests/test_byte.py:6-19 | 0xAB has high nibble A and low nibble B |
| Bytes.Add | chip8emulator/types/byte.py:40-58 | Addition wraps modulo 256 |
| Bytes.RAdd | chip8emulator/types/byte.py:60-61 | `other + byte` is `(other + byte) % 256` |
| Bytes.AddCommutes | chip8emulator/types/byte.py:40-61 | The sum of two bytes does not depend on their order, nor on the side of an int operand |
| Bytes.AddExamples | tests/test_byte.py:22-32 | 0xAA+0x60 wraps to 0x0A, and 1 + 0x10 is 0x11 |
| Bytes.AddDocExamples | chip8emulator/types/byte.py:44-48 | 0x10+0x20 is 0x30, and 0xFF+20 is 0x13 (the docstring says 0x1F) |
| Bytes.Sub | chip8emulator/types/byte.py:63-81 | Subtraction is the absolute difference, modulo 256 |
| Bytes.RSub | chip8emulator/types/byte.py:83-84 | `other - byte` is `abs(other - byte) % 256` |
| Bytes.SubSymmetric | chip8emulator/types/byte.py:63-84 | a-b equals b-a, and it is zero exactly when a equals b |
| Bytes.SubExamples | tests/test_byte.py:35-46 | 0x30-0x40 is 0x10, and 1 - 0x10 is 0x0F |
| Bytes.AbsValue | chip8emulator/types/byte.py:98-99 | `abs` gives back the same byte |
| Bytes.BitAnd | chip8emulator/types/byte.py:101-113 | `&` never exceeds the byte, nor a non-negative operand |
| Bytes.AndCommutes | chip8emulator/types/byte.py:101-113 | `&` between bytes is commutative and bounded by both operands |
| Bytes.AndExample | tests/test_byte.py:89-99 | 0xAA & 0x60 is 0x20 |
| Bytes.ShiftLeftBy | chip8emulator/types/byte.py:118-123 | `<<` raises on a negative count; otherwise it multiplies by 2^n and keeps eight bits |
| Bytes.ShiftRoundTrip | chip8emulator/types/byte.py:118-130 | A left shift that loses no bit (the byte below 2^(8-n)) is undone by the right shift by the same count |
| Bytes.ShiftExample | chip8emulator/types/byte.py:118-123 | 0x80 << 1 loses its bit and gives 0 |
| Bytes.ShiftRightBy | chip8emulator/types/byte.py:125-130 | `>>` raises on a negative count; otherwise it divides by 2^n and never increases the byte |
| Bytes.ShiftRightDecreases | chip8emulator/types/byte.py:125-130 | Shifting right by any count gives at most the byte |
| Bytes.Eq | chip8emulator/types/byte.py:86-90 | A byte equals an int exactly when the int lies in 0..255 and builds that byte |
| Bytes.Lt | chip8emulator/types/byte.py:92-96 | Every byte is below any int of at least 256 and below no int of at most 0; `<` excludes `==` |
| Bytes.Le | chip8emulator/types/byte.py:6 | The `<=` that `total_ordering` builds from `<` and `==` is the integer order on the value |
| Bytes.TotalOrder | chip8emulator/types/byte.py:86-96 | `<` is irreflexive, transitive and total with `==`, and the `<=` that `total_ordering` derives is antisymmetric |
| Bytes.Construction | chip8emulator/types/byte.py:32 | A byte built from an int equals the int exactly when the int lies in 0..255; `abs` is the identity |
| Bytes.ConstructionExamples | tests/test_byte.py:75-86 | 0x12, 128 and 255 are kept, and 256 becomes 0 |
| Words.Of | chip8emulator/types/word.py:24 | A word keeps the value modulo 65536; a value already in range is kept unchanged |
| Words.OfMasked | chip8emulator/types/word.py:53 | Masking before the constructor still gives the value modulo 65536 |
| Words.HighByte | chip8emulator/types/word.py:26-27 | The high byte is the word divided by 256 |
| Words.LowByte | chip8emulator/types/word.py:29-30 | The low byte is the word modulo 256 |
| Words.FirstNibble | chip8emulator/types/word.py:32-33 | The first nibble is the word divided by 4096 |
| Words.SecondNibble | chip8emulator/types/word.py:35-36 | The second nibble is bits 8 to 11 |
| Words.ThirdNibble | chip8emulator/types/word.py:38-39 | The third nibble is bits 4 to 7 |
| Words.FourthNibble | chip8emulator/types/word.py:41-42 | The fourth nibble is the word modulo 16 |
| Words.ByteSplit | chip8emulator/types/word.py:26-30 | 256 times the high byte plus the low byte gives back the word |
| Words.NibbleSplit | chip8emulator/types/word.py:32-42 | The four nibbles, weighted 4096, 256, 16 and 1, give back the word |
| Words.ByteExamples | tests/test_word.py:6-13 | 0xABCD has high byte 0xAB and low byte 0xCD |
| Words.NibbleExamples | tests/test_word.py:16-33 | 0xABCD has nibbles A, B, C and D |
| Words.Add | chip8emulator/types/word.py:44-53 | Addition wraps modulo 65536 |
| Words.RAdd | chip8emulator/types/word.py:55-56 | `other + word` is `(other + word) % 65536` |
| Words.AddCommutes | chip8emulator/types/word.py:44-56 | The sum does not depend on the order of the operands |
| Words.AddExamples | tests/test_word.py:36-47 | 0x1234+0x5678 is 0x68AC, 0xFFFF+1 wraps to 0, and 0x1234+1 is 0x1235 from either side |
| Words.Sub | chip8emulator/types/word.py:58-67 | Subtraction is the absolute difference, modulo 65536 |
| Words.RSub | chip8emulator/types/word.py:69-70 | `other - word` is `abs(other - word) % 65536` |
| Words.SubSymmetric | chip8emulator/types/word.py:58-70 | a-b equals b-a, and it is zero exactly when a equals b |
| Words.SubExamples | tests/test_word.py:50-61 | 0x1234-0x5678 is 0x4444, and 0xFFFF-1 and 1-0xFFFF are both 0xFFFE |
| Words.BitAnd | chip8emulator/types/word.py:72-81 | `&` never exceeds the word, nor a non-negative operand |
| Words.Eq | chip8emulator/types/word.py:83-90 | A word equals an int exactly when the int lies in 0..65535 and builds that word |
| Words.Lt | chip8emulator/types/word.py:92-99 | Every word is below any int of at least 65536 and below no int of at most 0; `<` excludes `==` |
| Words.TotalOrder | chip8emulator/types/word.py:83-99 | Between words, `<` is irreflexive, transitive, asymmetric and total with `==`, `==` is equality of values, and each word is below its successor, so `<` is the numeric order |
| Words.LtByBytes | chip8emulator/types/word.py:92-99 | Between words, `<` compares the high bytes first and the low bytes on a tie |
| Words.Construction | chip8emulator/types/word.py:83-99 | A word built from an int equals the int exactly when the int fits in 16 bits; `<` and `==` order words totally |
| Words.ConstructionExamples | chip8emulator/types/word.py:21-24 | Word(65536) is 0, and 0x1234 is kept |
| Opcodes.PatternShape | chip8emulator/opcodes.py:4-39 | Every member's name is `x` plus four characters, none of them a lower-case letter |
| Opcodes.PatternRoundTrip | chip8emulator/opcodes.py:4-39 | Every member can be recovered from the characters of its name |
| Opcodes.Distinct | chip8emulator/opcodes.py:4-42 | Distinct members have distinct names and distinct `repr`s |
| Opcodes.Repr | chip8emulator/opcodes.py:41-42 | `repr` is six characters, "0x" and four that look the member up again |
| Opcodes.ReprDropsX | chip8emulator/opcodes.py:41-42 | `repr` is "0x" followed by the member's name without its `x`; `upper` changes nothing |
| Opcodes.HighByte | chip8emulator/opcodes.py:45-46 | The high byte is bits 8 to 15, below 256, for every integer |
| Opcodes.LowByte | chip8emulator/opcodes.py:49-50 | The low byte is the value modulo 256 |
| Opcodes.FirstNibble | chip8emulator/opcodes.py:53-54 | The first nibble is bits 12 to 15, below 16 |
| Opcodes.SecondNibble | chip8emulator/opcodes.py:57-58 | The second nibble is bits 8 to 11, below 16 |
| Opcodes.ThirdNibble | chip8emulator/opcodes.py:61-62 | The third nibble is bits 4 to 7, below 16 |
| Opcodes.FourthNibble | chip8emulator/opcodes.py:65-66 | The fourth nibble is the value modulo 16 |
| Opcodes.Recombine | chip8emulator/opcodes.py:45-66 | For a 16-bit value, the two bytes and the four nibbles each recombine into the value |
| Opcodes.GettersAgree | chip8emulator/opcodes.py:45-66 | The first nibble is the high byte >> 4, the second is the high byte & 0xF, and the third is the low byte >> 4 |
| Decoder.Decode | chip8emulator/decoder.py:14-94 | For every integer, `decode` equals a table on the first, third and fourth nibbles. The family of the first nibble decides first, then the leftover rule; the second nibble never matters |
| Decoder.FallthroughIsLeftover | chip8emulator/decoder.py:88-94 | The second `match` gives `00E0` or `00EE` exactly when the third nibble is E or F, and `00EE` when the fourth is as well |
| Decoder.Masks | chip8emulator/decoder.py:14-90 | Each mask `decode` matches on is the matching nibbles kept in place |
| Decoder.CasesAgree | chip8emulator/decoder.py:31-86 | Each inner `match` returns its family's member, or the fallthrough's result when it has none |
| Decoder.TopNibbleDecodes | chip8emulator/decoder.py:14-60 | Top nibbles 1–7, 9 and A–D decode by the top nibble alone, whatever the other twelve bits |
| Decoder.ArithmeticDecodes | chip8emulator/decoder.py:31-50 | In the 8 family, last nibbles 0–7 and E give 8XY0–8XY7 and 8XYE |
| Decoder.KeyDecodes | chip8emulator/decoder.py:61-66 | In the E family, low byte 9E gives EX9E and A1 gives EXA1 |
| Decoder.MiscDecodes | chip8emulator/decoder.py:67-86 | In the F family, each of the nine listed low bytes gives its FX member |
| Decoder.LeftoverDecodes | chip8emulator/decoder.py:88-94 | An opcode no family claims gives 00EE exactly when the third and fourth nibbles are both at least E, 00E0 exactly when only the third is, and nothing otherwise |
| Decoder.DecodeNone | chip8emulator/decoder.py:88-94 | `decode` returns nothing exactly when no family claims the opcode and its third nibble is below E, and it never returns 0NNN |
| Decoder.TableNone | chip8emulator/decoder.py:88-94 | The nibble table is empty exactly when no family claims the nibbles and the third is below E; it never gives 0NNN |
| Decoder.LeftoverClearExample | chip8emulator/decoder.py:88-94 | 0x80F8 decodes as 00E0 |
| Decoder.LeftoverReturnExample | chip8emulator/decoder.py:88-94 | 0xE0EF decodes as 00EE |
| Decoder.NoneExample | chip8emulator/decoder.py:88-94 | 0x8008 decodes to nothing |
| Memories.New | chip8emulator/memory.py:2-4 | A new memory has `size` cells (none when the size is not positive), all zero |
| Memories.ValidateAddress | chip8emulator/memory.py:6-10 | Validation either returns true or raises `ValueError` |
| Memories.ValidationBound | chip8emulator/memory.py:7 | Validation fails exactly past the size, so the address equal to the size passes |
| Memories.Read | chip8emulator/memory.py:12-15 | On a well-formed memory, a read succeeds exactly below the size and returns that cell |
| Memories.ReadErrors | chip8emulator/memory.py:12-15 | A read past the size raises `ValueError`; a read at the size raises `IndexError` |
| Memories.ReadExample | chip8emulator/memory.py:2-15 | A fresh memory of the default size reads 0 at address 0 |
| Memories.Write | chip8emulator/memory.py:17-25 | A write succeeds exactly for an address below the size and a value of at most 8 bits. It changes only that cell, keeps the size and every cell a byte, and returns the stored value |
| Memories.WriteErrors | chip8emulator/memory.py:17-23 | Past the size a write raises `ValueError`, then a value of 256 or more raises `ValueError`, and at the size it raises `IndexError` |
| Memories.ReadAfterWrite | chip8emulator/memory.py:12-25 | Reading the written address gives the value; every other address reads as before |
| Memories.WriteExample | tests/test_memory.py:16-28 | 0x77 written at 80 reads back |
| Keypads.Init | chip8emulator/keypad.py:2-4 | A new keypad has no key pressed, and its key names are the sixteen hexadecimal digits in order |
| Keypads.Press | chip8emulator/keypad.py:6-10 | A key is accepted exactly when it is a string occurring in the key names; it then becomes the pressed key and nothing else changes. Otherwise `ValueError` |
| Keypads.PressedKey | chip8emulator/keypad.py:12-13 | `get_pressed_key` answers `None` until a press is accepted and afterwards the last accepted key (with `Keypads.LastPressWins` and `Keypads.PressedAfterPresses`); on a keypad that keeps this invariant the answer is always a string `press_key` accepts |
| Keypads.LastPressWins | chip8emulator/keypad.py:6-13 | After two presses of which the second is accepted, the second is the pressed key |
| Keypads.PressedAfterPresses | chip8emulator/keypad.py:6-13 | Over any run of presses, with rejected ones leaving the keypad as it was, the key names stay, `get_pressed_key` answers `None` or a string `press_key` accepted, and `None` exactly while nothing has been accepted |
| Keypads.PressedIsHexRun | chip8emulator/keypad.py:2-13 | Whatever a fresh keypad is pressed with, `get_pressed_key` answers `None` or a substring of "0123456789ABCDEF" |
| Keypads.AcceptsOccurrence | chip8emulator/keypad.py:7 | Any string found in the key names is accepted |
| Keypads.AcceptsKeyName | chip8emulator/keypad.py:2-10 | Every single key name is accepted |
| Keypads.AcceptExamples | tests/test_keypad.py:11-20 | "1" and "A" are accepted and become the pressed key |
| Keypads.AcceptRuns | chip8emulator/keypad.py:7 | "" and "AB" are accepted too |
| Keypads.RejectExamples | tests/test_keypad.py:23-25 | "G" and the integer 1 raise `ValueError` |
| Strings.ContainsIsSubstring | chip8emulator/keypad.py:7 | Python's `in` on strings holds exactly when the needle occurs as a contiguous run |
| Strings.HexDigitsRoundTrip | chip8emulator/types/nibble.py:23 | The hexadecimal digit of a value below 16 reads back as that value, and conversely |
| Python.Index | chip8emulator/processor.py:133 | A list index succeeds exactly within minus the length and the length, counting negatives from the end |
| Python.Update | chip8emulator/processor.py:166 | A list assignment succeeds on the same indices, changes only the addressed slot and keeps the length |
| Registries.New | chip8emulator/processor.py:11-16 | The keys are 0 to n-1 for a list of n values, holding those values; an empty list gives keys 0 to 14, all zero |
| Registries.TransformKey | chip8emulator/processor.py:36-58 | An int passes unchanged. A string never translates to a negative number. `IndexError` is raised exactly for a bare "v" or "V" |
| Registries.DropPrefix | chip8emulator/processor.py:39-40 | A leading `v` or `V` keeps only the second character, and fails on a one-character key |
| Registries.Translate | chip8emulator/processor.py:42-58 | Translation raises only `ValueError` and gives a non-negative number when it gives one |
| Registries.Get | chip8emulator/processor.py:60-62 | A lookup succeeds exactly when the translated key is present, and returns its value |
| Registries.Set | chip8emulator/processor.py:64-66 | An assignment succeeds exactly when the key translates, and adds the translated key |
| Registries.DigitName | chip8emulator/processor.py:42-43 | A digit names the register of its value |
| Registries.LetterName | chip8emulator/processor.py:44-56 | A to E, in either case, name registers 10 to 14; F raises `ValueError` |
| Registries.OtherName | chip8emulator/processor.py:42-58 | A character that is no hexadecimal digit stays a string key |
| Registries.OneCharacterName | chip8emulator/processor.py:36-58 | Every one-character name other than `v`: hexadecimal digits 0–E name their register, F raises, anything else is kept |
| Registries.RegisterNames | chip8emulator/processor.py:36-58 | Each of the registers 0 to 14 is named by its hexadecimal digit, alone or after `V` or `v` |
| Registries.Prefixed | chip8emulator/processor.py:39-40 | "V7", "v7" and "7" translate alike |
| Registries.BarePrefix | chip8emulator/processor.py:39-40 | "v" and "V" raise `IndexError` |
| Registries.RunsRaise | chip8emulator/processor.py:44-56 | "" and "AB" pass the substring test but match no letter, so they raise `ValueError` |
| Registries.TwoDigitName | chip8emulator/processor.py:42-43 | Two digits give their two-digit decimal number |
| Registries.DigitsExample | chip8emulator/processor.py:42-43 | "12" translates to 12 |
| Registries.OtherExample | chip8emulator/processor.py:42-58 | "GH" stays a string key |
| Registries.GetAfterSet | chip8emulator/processor.py:60-66 | Reading a key after setting it gives the value; keys that translate differently are unchanged |
| Processors.Reset | chip8emulator/processor.py:78-97 | pc is 0x200; index, carry flag, both timers and the stack pointer are zero; the stack is 16 zeros; `registries` is a fresh register file; `registry` and memory are untouched |
| Processors.Init | chip8emulator/processor.py:70-76 | A new processor is already reset, keeps the given memory, and its register file is the default one: keys 0 to 14, all zero |
| Processors.ResetForgets | chip8emulator/processor.py:78-97 | `reset` is idempotent and depends only on memory and `registry` |
| Processors.Fetch | chip8emulator/processor.py:108-113 | On a well-formed memory, a fetch succeeds exactly when pc+1 is below the size. On byte cells it returns 256 × memory[pc] + memory[pc+1] |
| Processors.FetchBytes | chip8emulator/processor.py:108-113 | The fetched opcode's high and low bytes are the two cells read |
| Processors.FetchErrors | chip8emulator/processor.py:108-113 | A pc past the size raises `ValueError`; at the size, for either byte, `IndexError` |
| Processors.FetchExamples | tests/test_processor.py:21-40 | A1 23 56 78 fetch 0xA123, 0x2356 and 0x5678 at 0, 1 and 2 |
| Processors.Address | chip8emulator/processor.py:122 | The address operand is the opcode modulo 4096 |
| Processors.OpcodeANNN | chip8emulator/processor.py:115-124 | The index register becomes NNN and pc advances by 2; nothing else changes |
| Processors.Opcode000E | chip8emulator/processor.py:131-139 | Succeeds exactly when the stack pointer is a valid Python list index of the stack, negative ones counting from the end. Then pc becomes the slot's value plus 2 and the pointer drops by one; otherwise `IndexError` |
| Processors.Opcode1NNN | chip8emulator/processor.py:141-153 | pc becomes NNN; stack, stack pointer and everything else are unchanged |
| Processors.Opcode2NNN | chip8emulator/processor.py:155-173 | The current pc, not pc+2, is stored in the slot the stack pointer indexes, a negative pointer counting from the end; the pointer rises by one and pc becomes NNN; a pointer that is no valid list index raises `IndexError` |
| Processors.CallThenReturn | chip8emulator/processor.py:131-173 | A call then a return restores the stack pointer. The new pc is the slot above the pushed one plus 2, not the caller's pc; from the last slot the return raises |
| Processors.FreshReturns | chip8emulator/processor.py:131-139 | On a fresh processor a return succeeds (pc 2, pointer -1), and a second one reads the last slot through the negative index |
| Processors.ReturnAbove | chip8emulator/processor.py:131-139 | After a push, the return reads the slot above the written one |
| Processors.RegisterX | chip8emulator/processor.py:180 | X is `(opcode / 256) % 16`, the second nibble |
| Processors.RegisterY | chip8emulator/processor.py:210 | Y is `(opcode / 16) % 16`, the third nibble |
| Processors.RegisterValue | chip8emulator/processor.py:187 | Register X reads the value the register file stores under the integer key X |
| Processors.Opcode3NNN | chip8emulator/processor.py:175-188 | Raises `ValueError` exactly when X is not a key. Otherwise pc advances by 4 exactly when VX equals NN, stays put exactly when it does not, and nothing else changes |
| Processors.Opcode4NNN | chip8emulator/processor.py:190-203 | As 3NNN, with the skip exactly when VX differs from NN |
| Processors.Opcode5XY0 | chip8emulator/processor.py:205-219 | Raises `ValueError` exactly when X or Y is not a key. Otherwise it skips by 4 exactly when VX equals VY, and nothing else changes |
| Processors.SkipsComplement | chip8emulator/processor.py:175-203 | On the same opcode exactly one of 3NNN and 4NNN skips |
| Processors.Opcode6XNN | chip8emulator/processor.py:221-226 | VX becomes NN, adding X if missing; pc and everything else are unchanged |
| Processors.SetThenSkip | chip8emulator/processor.py:175-226 | After 6XNN loads NN, 3XNN with the same NN skips and 4XNN does not |
| Processors.FreshRejectsVF | chip8emulator/processor.py:180-183 | A fresh processor has no register 15, so 3NNN, 4NNN and 5XY0 on VF raise |
| Processors.UpdateTimers | chip8emulator/processor.py:268-279 | Each timer above zero drops by exactly one and a zero timer stays zero; nothing else changes |
| Processors.TicksCountDown | chip8emulator/processor.py:268-279 | After n updates each timer has dropped by n, stopping at zero, and nothing else has changed |

## Where the tests disagree with the code

The model follows the code. The repository's tests expect otherwise in these places:

- `tests/test_processor.py:102` expects `2NNN` to push pc+2; the code pushes pc (`Processors.Opcode2NNN`).
- `tests/test_processor.py:114` expects an untaken `3XNN` skip to advance pc by 2, while the code leaves pc unchanged (`Processors.Opcode3NNN`). That test calls `opcode_3XNN`, which `processor.py` does not define, so it fails before reaching the expectation.
- `tests/test_processor.py:162` expects an untaken `5XY0` skip to move pc from 0x110 to 0x112; `opcode_5XY0` adds 4 only on equality, so pc stays at 0x110 (`Processors.Opcode5XY0`).
- `tests/test_processor.py:188` expects `6XNN` to advance pc; the code does not (`Processors.Opcode6XNN`).
- Several tests call handlers that do not exist, such as `opcode_00EE`, `opcode_3XNN`, `opcode_7XNN` and the `8XY*` handlers. They are not modelled.
- `tests/test_memory.py:19` writes the `bytes` value `b"\x77"` and expects to read 0x77 back; `bytes` has no `bit_length`, so the write raises `AttributeError` (`chip8emulator/memory.py:20`). The model's memory holds integers only.
- The docstring of `Byte.__add__` (`chip8emulator/types/byte.py:47-48`) gives `0xFF + 20` as `0x1F`; it is `0x13` (`Bytes.AddDocExamples`).

## Left out

- `Processor.cycle` (`chip8emulator/processor.py:228-266`) is left out. It calls `execute_opcode`, which the repository never defines, so every cycle fails after its dispatch.
- `Processor.load_program` is file I/O. It hands each one-byte `bytes` chunk to `Memory.__setitem__`, whose `value.bit_length()` (`chip8emulator/memory.py:20`) raises `AttributeError` on the first chunk, so nothing is stored.
- The `print("BEEP")` of `update_timers` is console output. Only the countdown is modelled.
- `opcode_00E0` and `Keypad.wait_for_key` are stubs with no behaviour.
- `graphics.py` and `chip8emulator.py` are left out. The first builds a list of zeros; the second is the host loop. The processor's `graphics` and `keypad` attributes are not fields of the model, because no modelled handler reads them.
- Operands of foreign types are not modelled. In Python, the operators of `Nibble` and `Word`, and `Byte`'s `+`, `-` and `&`, return `NotImplemented` for them, so Python raises `TypeError` (mixed operands such as `Nibble + Byte` or `Word - Byte` included). `Byte`'s `==` and `<` (`chip8emulator/types/byte.py:86-96`) have no such branch and return `None`, and so does the `<=` that `total_ordering` derives from them. `Byte`'s shifts (`chip8emulator/types/byte.py:118-130`) accept only an `int` count, so `Byte(1) << Byte(2)` raises `TypeError`. Here every operand is an `int`: a same-class operand of `+`, `-`, `&`, `==` and `<` takes part through its `value`.
- The memory's addresses and cell values are natural numbers. A negative address passes validation and indexes from the end of the list, and a negative value passes the width check. Neither is modelled.
- String methods (`upper`, `lower`, `isdigit`, `int`) have their ASCII meaning only. Non-ASCII digits and case mappings are not modelled.
- `StrEnum` values from `auto()` (and so which members Python would treat as aliases), iteration over the enumeration, and the hexadecimal `__repr__` of `Nibble`, `Byte` and `Word` are not modelled.
- `Memory` and `Processor` objects are shared and mutated in Python. Here each call returns a new value, so aliasing is not modelled.
- Bytes.BitAnd: the contract bounds the result by both operands rather than restating it bit for bit. Its body is `Bits.AndNat`, Python's `&`.
- Words.BitAnd: likewise.
- `Word` has no `total_ordering`, so its `<=`, `>` and `>=` are not modelled.
- Registries.TransformKey: the contract states the cases common to all keys. The per-name cases (digits, letters, prefix, runs) are separate lemmas.

=== FILE: bits.dfy ===
/** Python's bitwise operators on unbounded integers, and the facts that turn
    the emulator's masks and shifts into division and remainder. */
module Bits {

  function Pow2(n: nat): (r: nat)
    ensures r >= 1
  {
    if n == 0 then 1 else 2 * Pow2(n - 1)
  }

  /** The powers of two that the emulator's masks are built from. */
  lemma Pow2Table()
    ensures Pow2(1) == 2 && Pow2(3) == 8 && Pow2(4) == 16 && Pow2(5) == 32
    ensures Pow2(8) == 256 && Pow2(12) == 4096 && Pow2(16) == 0x1_0000
  {
  }

  /** Shifting by `a` and then by `b` is shifting by `a + b`. */
  lemma {:induction false} Pow2Add(a: nat, b: nat)
    ensures Pow2(a + b) == Pow2(a) * Pow2(b)
  {
    if a > 0 {
      Pow2Add(a - 1, b);
      MulAssoc(2, Pow2(a - 1), Pow2(b));
    }
  }

  /** Python's `a & b` for a non-negative `a`. A negative `b` behaves as its
      infinite two's complement, which floor division by 2 (`b / 2`) and the
      remainder `b % 2` reproduce bit by bit. Naming `b` in the `decreases`
      clause keeps a literal mask `a` from unrolling the recursion bit by bit. */
  function AndNat(a: nat, b: int): (r: nat)
    ensures r <= a
    decreases a, b
  {
    if a == 0 then 0
    else 2 * AndNat(a / 2, b / 2) + (if a % 2 == 1 && b % 2 == 1 then 1 else 0)
  }

  /** Python's `a & b` when at least one operand is non-negative, which is
      every use the emulator makes of it. */
  function And(a: int, b: int): (r: int)
    requires 0 <= a || 0 <= b
    ensures 0 <= r
    ensures 0 <= a ==> r <= a
    ensures 0 <= b ==> r <= b
  {
    if 0 <= a then
      if 0 <= b then AndNatCommutes(a, b); AndNat(a, b) else AndNat(a, b)
    else AndNat(b, a)
  }

  /** Python's `a | b` for non-negative operands. */
  function OrNat(a: nat, b: nat): (r: nat)
    ensures r >= a && r >= b
    decreases a + b
  {
    if a == 0 then b
    else if b == 0 then a
    else 2 * OrNat(a / 2, b / 2) + (if a % 2 == 1 || b % 2 == 1 then 1 else 0)
  }

  /** Python's `x >> n` for a non-negative count: floor division. */
  function ShiftRight(x: int, n: nat): int {
    x / Pow2(n)
  }

  /** Python's `x << n` for a non-negative count. */
  function ShiftLeft(x: int, n: nat): int {
    x * Pow2(n)
  }

  /** Python's `int.bit_length()` on a non-negative value. */
  function BitLength(v: nat): nat {
    if v == 0 then 0 else 1 + BitLength(v / 2)
  }

  lemma {:induction false} AndNatCommutes(a: nat, b: nat)
    ensures AndNat(a, b) == AndNat(b, a)
    decreases a + b
  {
    if a + b > 0 {
      AndNatCommutes(a / 2, b / 2);
    }
  }

  /** `And` is symmetric wherever it is defined. */
  lemma AndCommutes(a: int, b: int)
    requires 0 <= a || 0 <= b
    ensures And(a, b) == And(b, a)
  {
    if 0 <= a && 0 <= b {
      AndNatCommutes(a, b);
    }
  }

  /** Division and remainder are determined by the equation they satisfy. */
  lemma DivModUnique(v: int, d: int, q: int, r: int)
    requires 0 < d && 0 <= r < d && v == d * q + r
    ensures v / d == q && v % d == r
  {
    var q', r' := v / d, v % d;
    assert d * (q - q') == r' - r;
    MultipleBelow(d, q - q');
  }

  /** The only multiple of `d` strictly between `-d` and `d` is zero. */
  lemma MultipleBelow(d: int, x: int)
    requires 0 < d && -d < d * x < d
    ensures x == 0
  {
    MulMonotone(d, x);
  }

  lemma MulMonotone(d: int, x: int)
    requires 0 < d
    ensures 1 <= x ==> d <= d * x
    ensures x <= -1 ==> d * x <= -d
  {
  }

  /** Dividing a non-negative value by a positive divisor never increases it. */
  lemma DivAtMost(x: int, d: int)
    requires 0 <= x && 1 <= d
    ensures 0 <= x / d <= x
  {
  }

  lemma MulAssoc(a: int, b: int, c: int)
    ensures a * (b * c) == (a * b) * c
  {
  }

  lemma MulDistrib(a: int, b: int, c: int)
    ensures a * (b + c) == a * b + a * c
  {
  }

  lemma MulLe(a: int, x: int, y: int)
    requires 0 <= a && x <= y
    ensures a * x <= a * y
  {
    MulDistrib(a, x, y - x);
    assert 0 <= a * (y - x);
  }

  /** Dividing twice is dividing by the product. */
  lemma DivDiv(v: int, a: int, b: int)
    requires 0 < a && 0 < b
    ensures v / a / b == v / (a * b)
  {
    var q1, r1 := v / a, v % a;
    var q2, r2 := q1 / b, q1 % b;
    assert v == a * q1 + r1;
    assert q1 == b * q2 + r2;
    MulDistrib(a, b * q2, r2);
    MulAssoc(a, b, q2);
    assert v == (a * b) * q2 + (a * r2 + r1);
    MulLe(a, r2, b - 1);
    MulDistrib(a, b, -1);
    assert a * r2 + r1 < a * b;
    DivModUnique(v, a * b, q2, a * r2 + r1);
  }

  lemma QuotientBelow(r: int, a: int, b: int)
    requires 0 < a && 0 < b && 0 <= r < a * b
    ensures r / a < b
  {
    var s := r / a;
    assert a * s <= r;
    MulMonotone(a, s - b + 1);
  }

  /** Taking a digit group in place-value base `a` after a remainder by `a * b`. */
  lemma ModDiv(x: int, a: int, b: int)
    requires 0 < a && 0 < b
    ensures (x % (a * b)) / a == (x / a) % b
  {
    var q, r := x / (a * b), x % (a * b);
    var s, t := r / a, r % a;
    assert x == a * (b * q + s) + t;
    DivModUnique(x, a, b * q + s, t);
    QuotientBelow(r, a, b);
    DivModUnique(b * q + s, b, q, s);
  }

  /** A remainder by `a * b`, then by `a`, is the remainder by `a`. */
  lemma ModMod(x: int, a: int, b: int)
    requires 0 < a && 0 < b
    ensures (x % (a * b)) % a == x % a
  {
    var q, r := x / (a * b), x % (a * b);
    assert x == a * (b * q + r / a) + r % a;
    DivModUnique(x, a, b * q + r / a, r % a);
  }

  /** The remainder by `2d` in terms of the remainder of `v / 2` by `d`. */
  lemma ModDouble(v: int, d: int)
    requires 0 < d
    ensures v % (2 * d) == 2 * ((v / 2) % d) + v % 2
  {
    var q, b := v / 2, v % 2;
    var s, t := q / d, q % d;
    assert v == (2 * d) * s + (2 * t + b);
    DivModUnique(v, 2 * d, s, 2 * t + b);
  }

  /** A mask of the low `k` bits is the remainder by `2^k`. */
  lemma {:induction false} LowMask(k: nat, v: int)
    ensures AndNat(Pow2(k) - 1, v) == v % Pow2(k)
  {
    if k > 0 {
      var p := Pow2(k - 1);
      var m := Pow2(k) - 1;
      assert m == 2 * (p - 1) + 1;
      DivModUnique(m, 2, p - 1, 1);
      LowMask(k - 1, v / 2);
      AndNatStep(m, v);
      assert AndNat(m, v) == 2 * ((v / 2) % p) + v % 2;
      ModDouble(v, p);
    }
  }

  /** One step of the recursion of `AndNat`, which holds for zero as well. */
  lemma {:induction false} AndNatStep(a: nat, v: int)
    ensures AndNat(a, v) == 2 * AndNat(a / 2, v / 2) + (if a % 2 == 1 && v % 2 == 1 then 1 else 0)
  {
  }

  /** A mask splits at bit `k` into a high part, applied to `v >> k`, and a
      low part. */
  lemma {:induction false} AndSplit(hi: nat, lo: nat, k: nat, v: int)
    requires lo < Pow2(k)
    ensures AndNat(hi * Pow2(k) + lo, v) == Pow2(k) * AndNat(hi, v / Pow2(k)) + AndNat(lo, v)
  {
    if k == 0 {
      AndSplitBase(hi, lo, k, v);
    } else {
      var p := Pow2(k - 1);
      assert Pow2(k) == 2 * p;
      AndSplit(hi, lo / 2, k - 1, v / 2);
      SplitStep(hi, lo, p, v);
    }
  }

  lemma AndSplitBase(hi: nat, lo: nat, k: nat, v: int)
    requires k == 0 && lo < Pow2(k)
    ensures AndNat(hi * Pow2(k) + lo, v) == Pow2(k) * AndNat(hi, v / Pow2(k)) + AndNat(lo, v)
  {
    assert Pow2(k) == 1 && lo == 0;
    assert hi * Pow2(k) + lo == hi && v / Pow2(k) == v;
  }

  /** The inductive step of `AndSplit`, from bit `k - 1` (where `p` is
      `2^(k-1)`) to bit `k`. */
  lemma {:induction false} SplitStep(hi: nat, lo: nat, p: nat, v: int)
    requires 0 < p && lo < 2 * p
    requires AndNat(hi * p + lo / 2, v / 2) == p * AndNat(hi, v / 2 / p) + AndNat(lo / 2, v / 2)
    ensures AndNat(hi * (2 * p) + lo, v) == (2 * p) * AndNat(hi, v / (2 * p)) + AndNat(lo, v)
  {
    var a := hi * (2 * p) + lo;
    HalfOfSplit(hi, lo, p);
    DivDiv(v, 2, p);
    AndNatStep(a, v);
    AndNatStep(lo, v);
    StepArithmetic(AndNat(a, v), AndNat(a / 2, v / 2), AndNat(lo, v),
      AndNat(hi, v / (2 * p)), AndNat(lo / 2, v / 2), if lo % 2 == 1 && v % 2 == 1 then 1 else 0, p);
  }

  lemma HalfOfSplit(hi: nat, lo: nat, p: nat)
    ensures (hi * (2 * p) + lo) / 2 == hi * p + lo / 2
    ensures (hi * (2 * p) + lo) % 2 == lo % 2
  {
    Twice(p, hi);
    DivModUnique(hi * (2 * p) + lo, 2, hi * p + lo / 2, lo % 2);
  }

  lemma StepArithmetic(whole: int, half: int, low: int, x: int, y: int, bit: int, p: int)
    requires whole == 2 * half + bit && half == p * x + y && low == 2 * y + bit
    ensures whole == (2 * p) * x + low
  {
    Twice(p, x);
  }

  lemma Twice(p: int, x: int)
    ensures 2 * (p * x) == (2 * p) * x
  {
  }

  /** Masking `2^m - 1` bits starting at bit `k`, then shifting right by `k`,
      extracts `(v / 2^k) % 2^m`: the shape of every field getter,
      `(value & mask) >> k`. */
  lemma Field(v: int, m: nat, k: nat)
    ensures ShiftRight(And(v, (Pow2(m) - 1) * Pow2(k)), k) == (v / Pow2(k)) % Pow2(m)
  {
    FieldInPlace(v, m, k);
    DivModUnique(Pow2(k) * ((v / Pow2(k)) % Pow2(m)), Pow2(k), (v / Pow2(k)) % Pow2(m), 0);
  }

  /** The same field left in place: `value & mask` is the field times `2^k`. */
  lemma FieldInPlace(v: int, m: nat, k: nat)
    ensures And(v, (Pow2(m) - 1) * Pow2(k)) == Pow2(k) * ((v / Pow2(k)) % Pow2(m))
  {
    var mask := Pow2(m) - 1;
    AndShifted(mask, k, v);
    AndCommutes(v, mask * Pow2(k));
    LowMask(m, v / Pow2(k));
  }

  /** `AndSplit` without a low part. */
  lemma AndShifted(hi: nat, k: nat, v: int)
    ensures AndNat(hi * Pow2(k), v) == Pow2(k) * AndNat(hi, v / Pow2(k))
  {
    AndSplit(hi, 0, k, v);
  }

  /** A mask of the low `k` bits, in the form `value & mask` that the source writes. */
  lemma LowField(v: int, k: nat)
    ensures And(v, Pow2(k) - 1) == v % Pow2(k)
  {
    LowMask(k, v);
    if 0 <= v {
      AndNatCommutes(v, Pow2(k) - 1);
    }
  }

  /** Or-ing a value below `2^k` into a value shifted left by `k` is addition. */
  lemma {:induction false} OrShifted(a: nat, k: nat, b: nat)
    requires b < Pow2(k)
    ensures OrNat(a * Pow2(k), b) == a * Pow2(k) + b
  {
    if k > 0 && a != 0 && b != 0 {
      var p := Pow2(k - 1);
      var h := a * p;
      Twice(p, a);
      assert a * Pow2(k) == 2 * h;
      DivModUnique(2 * h, 2, h, 0);
      OrShifted(a, k - 1, b / 2);
      assert OrNat(2 * h, b) == 2 * OrNat(h, b / 2) + b % 2;
    }
  }

  /** `v.bit_length() <= k` exactly when `v < 2^k`. */
  lemma {:induction false} BitLengthBound(v: nat, k: nat)
    ensures BitLength(v) <= k <==> v < Pow2(k)
  {
    if v != 0 && k > 0 {
      BitLengthBound(v / 2, k - 1);
    }
  }

  /** A 16-bit value is the sum of its four hexadecimal digits times their place values. */
  lemma FourNibbles(v: int)
    requires 0 <= v < 0x1_0000
    ensures v == 4096 * ((v / 4096) % 16) + 256 * ((v / 256) % 16) + 16 * ((v / 16) % 16) + v % 16
  {
    var q1 := v / 16;
    var q2 := q1 / 16;
    var q3 := q2 / 16;
    assert v == 16 * q1 + v % 16;
    assert q1 == 16 * q2 + q1 % 16;
    assert q2 == 16 * q3 + q2 % 16;
    DivDiv(v, 16, 16);
    DivDiv(v, 256, 16);
    assert q2 == v / 256 && q3 == v / 4096;
    assert q3 < 16;
  }

  /** The masks the emulator writes, each as a remainder or a digit group. */
  lemma Mask4(v: int)
    ensures And(v, 0xF) == v % 16
  {
    Pow2Table();
    LowField(v, 4);
  }

  lemma Mask8(v: int)
    ensures And(v, 0xFF) == v % 256
  {
    Pow2Table();
    LowField(v, 8);
  }

  lemma Mask16(v: int)
    ensures And(v, 0xFFFF) == v % 0x1_0000
  {
    Pow2Table();
    LowField(v, 16);
  }

  lemma FieldF0(v: int)
    ensures ShiftRight(And(v, 0xF0), 4) == (v / 16) % 16
  {
    Pow2Table();
    Field(v, 4, 4);
  }

  lemma FieldF00(v: int)
    ensures ShiftRight(And(v, 0xF00), 8) == (v / 256) % 16
  {
    Pow2Table();
    Field(v, 4, 8);
  }

  lemma FieldF000(v: int)
    ensures ShiftRight(And(v, 0xF000), 12) == (v / 4096) % 16
  {
    Pow2Table();
    Field(v, 4, 12);
  }

  lemma FieldFF00(v: int)
    ensures ShiftRight(And(v, 0xFF00), 8) == (v / 256) % 256
  {
    Pow2Table();
    Field(v, 8, 8);
  }
}

=== FILE: byte.dfy ===
/** The `Byte` value type: an eight-bit unsigned value. As for nibbles, a
    `Byte` operand takes part through its `value`, so operands are `int`s. */
module Bytes {
  import opened Bits
  import opened Python
  import Nibbles

  type Byte = v: int | 0 <= v < 256

  /** `Byte(value)`: only the low eight bits are kept. */
  function Of(value: int): (r: Byte)
    ensures r == value % 256
    ensures 0 <= value < 256 ==> r == value
  {
    Mask8(value);
    And(value, 0xFF)
  }

  /** `Byte(x & 0xFF)`, the form every arithmetic operator returns: the mask
      before the constructor, which masks again. */
  function OfMasked(x: int): (r: Byte)
    ensures r == x % 256
  {
    Mask8(x);
    assert Of(x % 256) == x % 256;
    Of(And(x, 0xFF))
  }

  /** `get_high_nibble`: `(value & 0xF0) >> 4`. */
  function HighNibble(b: Byte): (r: Nibbles.Nibble)
    ensures r == b / 16
  {
    HighField(b);
    Nibbles.Of(ShiftRight(And(b, 0xF0), 4))
  }

  /** On an eight-bit value, the top mask needs no remainder. */
  lemma HighField(b: Byte)
    ensures ShiftRight(And(b, 0xF0), 4) == b / 16
  {
    FieldF0(b);
    DivModUnique(b / 16, 16, 0, b / 16);
  }

  /** `get_low_nibble`: `value & 0x0F`. */
  function LowNibble(b: Byte): (r: Nibbles.Nibble)
    ensures r == b % 16
  {
    Mask4(b);
    Nibbles.Of(And(b, 0x0F))
  }

  /** `byte + other`, wrapping modulo 256. */
  function Add(b: Byte, other: int): (r: Byte)
    ensures r == (b + other) % 256
  {
    OfMasked(b + other)
  }

  /** `other + byte`: Python delegates to `Add`. */
  function RAdd(b: Byte, other: int): (r: Byte)
    ensures r == (other + b) % 256
  {
    Add(b, other)
  }

  /** `byte - other`: the absolute difference, kept to eight bits. */
  function Sub(b: Byte, other: int): (r: Byte)
    ensures r == Abs(b - other) % 256
  {
    OfMasked(Abs(b - other))
  }

  /** `other - byte`: Python delegates to `Sub`, so the operands are not swapped. */
  function RSub(b: Byte, other: int): (r: Byte)
    ensures r == Abs(other - b) % 256
  {
    Sub(b, other)
  }

  /** `byte == other`: a byte equals only an `int` in 0..255, and only the one
      it is built from. */
  function Eq(b: Byte, other: int): (r: bool)
    ensures r <==> 0 <= other < 256 && Of(other) == b
  {
    b == other
  }

  /** `byte < other`: every byte is below 256 and none is below 1. */
  function Lt(b: Byte, other: int): (r: bool)
    ensures 256 <= other ==> r
    ensures other <= 0 ==> !r
    ensures r ==> !Eq(b, other)
  {
    b < other
  }

  /** The `<=` that `functools.total_ordering` derives from `<` and `==`: it
      is the integer order on the byte's value. */
  function Le(b: Byte, other: int): (r: bool)
    ensures r <==> b <= other
  {
    Lt(b, other) || Eq(b, other)
  }

  /** `abs(byte)`. */
  function AbsValue(b: Byte): (r: Byte)
    ensures r == b
  {
    OfMasked(Abs(b))
  }

  /** `byte & other` (and `other & byte`). */
  function BitAnd(b: Byte, other: int): (r: Byte)
    ensures r <= b
    ensures 0 <= other ==> r <= other
  {
    Of(And(b, other))
  }

  /** `byte << n`: a negative count raises; the result keeps eight bits. */
  function ShiftLeftBy(b: Byte, n: int): (r: Result<Byte>)
    ensures r.Ok? <==> 0 <= n
    ensures r.Ok? ==> r.value == (b * Pow2(n)) % 256
  {
    if n < 0 then Raise(ValueError)
    else
      Ok(OfMasked(ShiftLeft(b, n)))
  }

  /** `byte >> n`: a negative count raises. */
  function ShiftRightBy(b: Byte, n: int): (r: Result<Byte>)
    ensures r.Ok? <==> 0 <= n
    ensures r.Ok? ==> r.value == b / Pow2(n) && r.value <= b
  {
    if n < 0 then Raise(ValueError)
    else
      DivAtMost(b, Pow2(n));
      Ok(OfMasked(ShiftRight(b, n)))
  }

  /** The contracts of `Of` and `OfMasked` at one argument: the worked
      examples below use these facts rather than unfold a mask on a literal. */
  lemma OfAt(x: int, r: int)
    requires r == x % 256
    ensures Of(x) == r
  {
  }

  lemma OfMaskedAt(x: int, r: int)
    requires r == x % 256
    ensures OfMasked(x) == r
  {
  }

  lemma NibblesAt(b: Byte, high: int, low: int)
    requires high == b / 16 && low == b % 16
    ensures HighNibble(b) == high && LowNibble(b) == low
  {
  }

  /** The two nibbles recombine into the byte. */
  lemma NibbleSplit(b: Byte)
    ensures 16 * HighNibble(b) + LowNibble(b) == b
  {
  }

  /** The getter examples of the byte tests: 0xAB splits into A and B. */
  lemma NibbleExample()
    ensures HighNibble(0xAB) == 0xA && LowNibble(0xAB) == 0xB
  {
    NibblesAt(0xAB, 0xA, 0xB);
  }

  /** Addition does not depend on the side of the operand. */
  lemma AddCommutes(a: Byte, b: Byte, other: int)
    ensures Add(a, b) == Add(b, a)
    ensures RAdd(a, other) == Add(a, other)
  {
  }

  /** Addition wraps past 0xFF: `0xAA + 0x60` is `0x0A`. */
  lemma AddExamples()
    ensures Add(0xAA, 0x60) == 0x0A && RAdd(0x10, 1) == 0x11
  {
    OfMaskedAt(0x10A, 0x0A);
    OfMaskedAt(0x11, 0x11);
  }

  /** The examples written beside `__add__`: `0x10 + 0x20` is `0x30`, and
      `0xFF + 20` wraps to `0x13` (0x113 keeps its low byte). */
  lemma AddDocExamples()
    ensures Add(0x10, 0x20) == 0x30 && Add(0xFF, 20) == 0x13
  {
    OfMaskedAt(0x30, 0x30);
    OfMaskedAt(0x113, 0x13);
  }

  /** Subtraction is symmetric and yields zero exactly on equal bytes. */
  lemma SubSymmetric(a: Byte, b: Byte)
    ensures Sub(a, b) == Sub(b, a) == RSub(b, a)
    ensures Sub(a, b) == 0 <==> a == b
  {
    assert Abs(a - b) == Abs(b - a);
    assert Abs(a - b) < 256;
  }

  /** `0x30 - 0x40` is `0x10`, and `1 - Byte(0x10)` is `0x0F`, as is `Byte(0x10) - 1`. */
  lemma SubExamples()
    ensures Sub(0x30, 0x40) == 0x10 && RSub(0x10, 1) == 0x0F
  {
    OfMaskedAt(0x10, 0x10);
    OfMaskedAt(0x0F, 0x0F);
  }

  /** `&` is commutative between bytes and never exceeds either operand. */
  lemma {:induction false} AndCommutes(a: Byte, b: Byte)
    ensures BitAnd(a, b) == BitAnd(b, a)
    ensures BitAnd(a, b) <= a && BitAnd(a, b) <= b
  {
    Bits.AndCommutes(a, b);
  }

  /** `0xAA & 0x60`, worked bit by bit. */
  lemma AndExample()
    ensures BitAnd(0xAA, 0x60) == 0x20
  {
    assert AndNat(1, 0) == 0;
    assert AndNat(2, 1) == 0;
    assert AndNat(5, 3) == 1;
    assert AndNat(10, 6) == 2;
    assert AndNat(21, 12) == 4;
    assert AndNat(42, 24) == 8;
    assert AndNat(85, 48) == 16;
    assert AndNat(170, 96) == 32;
  }

  /** Shifting right never increases a byte. */
  lemma ShiftRightDecreases(b: Byte, n: nat)
    ensures ShiftRightBy(b, n).value <= b
  {
  }

  /** A left shift that loses no bit is undone by the right shift. */
  lemma ShiftRoundTrip(b: Byte, n: nat)
    requires n <= 8 && b < Pow2(8 - n)
    ensures ShiftLeftBy(b, n).Ok?
    ensures ShiftRightBy(ShiftLeftBy(b, n).value, n) == Ok(b)
  {
    Pow2Add(8 - n, n);
    Pow2Table();
    ShiftedFits(b, Pow2(n), Pow2(8 - n));
    DivModUnique(b * Pow2(n), 256, 0, b * Pow2(n));
    DivModUnique(b * Pow2(n), Pow2(n), b, 0);
  }

  /** A value below `q`, scaled by `p`, stays below `q * p`. */
  lemma ShiftedFits(b: nat, p: nat, q: nat)
    requires 1 <= p && b < q
    ensures 0 <= b * p < q * p
  {
    MulLe(p, b + 1, q);
  }

  /** Shifting left past bit 7 loses the bit. */
  lemma ShiftExample()
    ensures ShiftLeftBy(0x80, 1) == Ok(0)
  {
    OfMaskedAt(256, 0);
  }

  /** `<` and `==` give a strict total order, and the derived `<=` a total order. */
  lemma TotalOrder(a: Byte, b: Byte, c: Byte)
    ensures !Lt(a, a)
    ensures Lt(a, b) && Lt(b, c) ==> Lt(a, c)
    ensures Lt(a, b) || Eq(a, b) || Lt(b, a)
    ensures Le(a, b) && Le(b, a) ==> Eq(a, b)
  {
  }

  /** A byte built from an `int` equals it exactly when it fits in eight
      bits, and `abs` changes nothing. */
  lemma Construction(value: int, b: Byte)
    ensures Eq(Of(value), value) <==> 0 <= value < 256
    ensures AbsValue(b) == b
  {
  }

  /** The constructor examples of the byte tests. */
  lemma ConstructionExamples()
    ensures Of(0x12) == 0x12 && Of(128) == 0x80 && Of(255) == 0xFF && Of(256) == 0
  {
    OfAt(0x12, 0x12);
    OfAt(128, 0x80);
    OfAt(255, 0xFF);
    OfAt(256, 0);
  }
}

=== FILE: decoder.dfy ===
/** `decode`: from an opcode word to a member of the opcode enumeration. */
module Decoder {
  import opened Bits
  import opened Python
  import opened Opcodes

  /** `decode(opcode)`: the masks it matches on are taken first, which changes
      nothing since Python's `&` has no side effect. A family case that matches
      nothing falls out of the first `match` and into the second (`leftover`),
      as in the source. For every integer the result is the entry of the
      nibble-level `Table` at the first, third and fourth nibbles: the family
      of the first nibble decides first, then the leftover rule, and the
      second nibble never matters. */
  function Decode(op: int): (r: Option<Opcode>)
    ensures r == Table(FirstNibble(op), ThirdNibble(op), FourthNibble(op))
  {
    var top, low4, low8 := And(op, 0xF000), And(op, 0x000F), And(op, 0x00FF);
    MaskF000(op);
    Mask00FF(op);
    FallthroughIsLeftover(op);
    DispatchIsTable(top, low4, low8, Fallthrough(op), FirstNibble(op), ThirdNibble(op), FourthNibble(op));
    Dispatch(top, low4, low8, Fallthrough(op))
  }

  /** The first `match` of `decode`, on `top = opcode & 0xF000`, with
      `low4 = opcode & 0x000F` and `low8 = opcode & 0x00FF`. */
  function Dispatch(top: int, low4: int, low8: int, leftover: Option<Opcode>): Option<Opcode> {
    match top
    case 0x1000 => Some(X1NNN)
    case 0x2000 => Some(X2NNN)
    case 0x3000 => Some(X3XNN)
    case 0x4000 => Some(X4XNN)
    case 0x5000 => Some(X5XY0)
    case 0x6000 => Some(X6XNN)
    case 0x7000 => Some(X7XNN)
    case 0x8000 => ArithmeticCase(low4, leftover)
    case 0x9000 => Some(X9XY0)
    case 0xA000 => Some(XANNN)
    case 0xB000 => Some(XBNNN)
    case 0xC000 => Some(XCXNN)
    case 0xD000 => Some(XDXYN)
    case 0xE000 => KeyCase(low8, leftover)
    case 0xF000 => MiscCase(low8, leftover)
    case _ => leftover
  }

  /** The inner `match opcode & 0x000F` of the `0x8000` case. */
  function ArithmeticCase(low: int, leftover: Option<Opcode>): Option<Opcode> {
    match low
    case 0x0 => Some(X8XY0)
    case 0x1 => Some(X8XY1)
    case 0x2 => Some(X8XY2)
    case 0x3 => Some(X8XY3)
    case 0x4 => Some(X8XY4)
    case 0x5 => Some(X8XY5)
    case 0x6 => Some(X8XY6)
    case 0x7 => Some(X8XY7)
    case 0xE => Some(X8XYE)
    case _ => leftover
  }

  /** The inner `match opcode & 0x00FF` of the `0xE000` case. */
  function KeyCase(low: int, leftover: Option<Opcode>): Option<Opcode> {
    match low
    case 0x9E => Some(XEX9E)
    case 0xA1 => Some(XEXA1)
    case _ => leftover
  }

  /** The inner `match opcode & 0x00FF` of the `0xF000` case. */
  function MiscCase(low: int, leftover: Option<Opcode>): Option<Opcode> {
    match low
    case 0x07 => Some(XFX07)
    case 0x0A => Some(XFX0A)
    case 0x15 => Some(XFX15)
    case 0x18 => Some(XFX18)
    case 0x1E => Some(XFX1E)
    case 0x29 => Some(XFX29)
    case 0x33 => Some(XFX33)
    case 0x55 => Some(XFX55)
    case 0x65 => Some(XFX65)
    case _ => leftover
  }

  /** The second `match` of `decode`, reached by every opcode the first one
      did not return for; the function returns `None` when it matches nothing. */
  function Fallthrough(op: int): Option<Opcode> {
    if And(op, 0x00E0) == 0x00E0 then
      if And(op, 0x00EE) == 0x00EE then Some(X00EE) else Some(X00E0)
    else None
  }

  /** The member named after a top nibble that decodes on its own. */
  function ByTopNibble(n1: int): Option<Opcode> {
    if n1 == 0x1 then Some(X1NNN)
    else if n1 == 0x2 then Some(X2NNN)
    else if n1 == 0x3 then Some(X3XNN)
    else if n1 == 0x4 then Some(X4XNN)
    else if n1 == 0x5 then Some(X5XY0)
    else if n1 == 0x6 then Some(X6XNN)
    else if n1 == 0x7 then Some(X7XNN)
    else if n1 == 0x9 then Some(X9XY0)
    else if n1 == 0xA then Some(XANNN)
    else if n1 == 0xB then Some(XBNNN)
    else if n1 == 0xC then Some(XCXNN)
    else if n1 == 0xD then Some(XDXYN)
    else None
  }

  /** The arithmetic family `8XY?`, by its last nibble. */
  function ArithmeticFamily(n4: int): Option<Opcode> {
    if 0 <= n4 <= 7 then Some([X8XY0, X8XY1, X8XY2, X8XY3, X8XY4, X8XY5, X8XY6, X8XY7][n4])
    else if n4 == 0xE then Some(X8XYE)
    else None
  }

  /** The key family `EX??`, by its low byte. */
  function KeyFamily(low: int): Option<Opcode> {
    if low == 0x9E then Some(XEX9E)
    else if low == 0xA1 then Some(XEXA1)
    else None
  }

  /** The timer and memory family `FX??`, by its low byte. */
  function MiscFamily(low: int): Option<Opcode> {
    if low == 0x07 then Some(XFX07)
    else if low == 0x0A then Some(XFX0A)
    else if low == 0x15 then Some(XFX15)
    else if low == 0x18 then Some(XFX18)
    else if low == 0x1E then Some(XFX1E)
    else if low == 0x29 then Some(XFX29)
    else if low == 0x33 then Some(XFX33)
    else if low == 0x55 then Some(XFX55)
    else if low == 0x65 then Some(XFX65)
    else None
  }

  /** The member the family of the first nibble gives, if any. The second
      nibble never matters. */
  function Family(n1: int, n3: int, n4: int): Option<Opcode> {
    if n1 == 0x8 then ArithmeticFamily(n4)
    else if n1 == 0xE then KeyFamily(16 * n3 + n4)
    else if n1 == 0xF then MiscFamily(16 * n3 + n4)
    else ByTopNibble(n1)
  }

  /** The leftover rule: a third nibble of E or F gives `00E0`, or `00EE` when
      the fourth nibble is E or F as well. */
  function Leftover(n3: int, n4: int): Option<Opcode> {
    if n3 >= 0xE then (if n4 >= 0xE then Some(X00EE) else Some(X00E0))
    else None
  }

  /** What `decode` does, stated on the nibbles of the opcode. */
  function Table(n1: int, n3: int, n4: int): Option<Opcode> {
    if Family(n1, n3, n4).Some? then Family(n1, n3, n4) else Leftover(n3, n4)
  }

  /** `op & 0x00E0` keeps the top three bits of the third nibble. */
  lemma MaskE0(op: int)
    ensures And(op, 0x00E0) == 32 * (ThirdNibble(op) / 2)
  {
    assert And(op, 0xE0) == 32 * ((op / 32) % 8) by {
      Pow2Table();
      FieldInPlace(op, 3, 5);
    }
    HalfNibble(op, 16);
  }

  /** Half of the nibble above `d`: the three bits above `2d`. */
  lemma HalfNibble(op: int, d: int)
    requires d == 1 || d == 16
    ensures ((op / d) % 16) / 2 == (op / (2 * d)) % 8
  {
    DivDiv(op, d, 2);
    ModDiv(op / d, 2, 8);
  }

  /** `y & 0xE` keeps the top three bits of the low nibble of `y`. */
  lemma MaskE(y: int)
    ensures AndNat(0xE, y) == 2 * ((y % 16) / 2)
  {
    assert And(y, 0xE) == 2 * ((y / 2) % 8) by {
      Pow2Table();
      FieldInPlace(y, 3, 1);
    }
    AndCommutes(y, 0xE);
    HalfNibble(y, 1);
  }

  /** `op & 0x00EE` keeps the top three bits of the third and of the fourth nibble. */
  lemma MaskEE(op: int)
    ensures And(op, 0x00EE) == 32 * (ThirdNibble(op) / 2) + 2 * (FourthNibble(op) / 2)
  {
    assert And(op, 0xEE) == AndNat(0xEE, op) by {
      AndCommutes(op, 0xEE);
    }
    assert AndNat(0xEE, op) == 16 * AndNat(0xE, op / 16) + AndNat(0xE, op) by {
      Pow2Table();
      AndSplit(0xE, 0xE, 4, op);
    }
    MaskE(op / 16);
    MaskE(op);
  }

  /** `op & 0xF000` is the first nibble in place. */
  lemma MaskF000(op: int)
    ensures And(op, 0xF000) == 4096 * FirstNibble(op)
  {
    Pow2Table();
    FieldInPlace(op, 4, 12);
  }

  /** `op & 0x00FF` is the low byte, made of the third and fourth nibbles. */
  lemma Mask00FF(op: int)
    ensures And(op, 0x000F) == FourthNibble(op)
    ensures And(op, 0x00FF) == 16 * ThirdNibble(op) + FourthNibble(op)
  {
    Mask4(op);
    Mask8(op);
    ModDiv(op, 16, 16);
    ModMod(op, 16, 16);
    assert op % 256 == 16 * ((op % 256) / 16) + (op % 256) % 16;
  }

  /** The masks `decode` applies, as nibbles. */
  lemma Masks(op: int)
    ensures And(op, 0xF000) == 4096 * FirstNibble(op)
    ensures And(op, 0x000F) == FourthNibble(op)
    ensures And(op, 0x00FF) == 16 * ThirdNibble(op) + FourthNibble(op)
    ensures And(op, 0x00E0) == 0x00E0 <==> ThirdNibble(op) >= 0xE
    ensures And(op, 0x00EE) == 0x00EE <==> ThirdNibble(op) >= 0xE && FourthNibble(op) >= 0xE
  {
    MaskF000(op);
    Mask00FF(op);
    MaskE0(op);
    MaskEE(op);
    HalfSeven(ThirdNibble(op));
    HalfSeven(FourthNibble(op));
  }

  lemma HalfSeven(n: int)
    requires 0 <= n < 16
    ensures n / 2 == 7 <==> n >= 0xE
    ensures n / 2 <= 7
  {
  }

  /** Each inner `match` returns its family's member, or the leftover rule's
      answer when the family has none. */
  lemma CasesAgree(low: int, leftover: Option<Opcode>)
    ensures ArithmeticCase(low, leftover) == (if ArithmeticFamily(low).Some? then ArithmeticFamily(low) else leftover)
    ensures KeyCase(low, leftover) == (if KeyFamily(low).Some? then KeyFamily(low) else leftover)
    ensures MiscCase(low, leftover) == (if MiscFamily(low).Some? then MiscFamily(low) else leftover)
  {
  }

  /** The outer `match`, on masks that hold the nibbles in place, with the
      leftover rule's answer as the fallback, is the nibble table. */
  lemma DispatchIsTable(top: int, low4: int, low8: int, leftover: Option<Opcode>, n1: int, n3: int, n4: int)
    requires 0 <= n1 < 16 && 0 <= n3 < 16 && 0 <= n4 < 16
    requires top == 4096 * n1 && low4 == n4 && low8 == 16 * n3 + n4
    requires leftover == Leftover(n3, n4)
    ensures Dispatch(top, low4, low8, leftover) == Table(n1, n3, n4)
  {
    CasesAgree(n4, leftover);
    CasesAgree(16 * n3 + n4, leftover);
  }

  /** The second `match` of `decode` is the leftover rule. */
  lemma FallthroughIsLeftover(op: int)
    ensures Fallthrough(op) == Leftover(ThirdNibble(op), FourthNibble(op))
  {
    Masks(op);
  }

  /** The low byte `decode` matches the 0xE and 0xF families on is made of
      the third and fourth nibbles. */
  lemma LowByteNibbles(op: int)
    ensures LowByte(op) == 16 * ThirdNibble(op) + FourthNibble(op)
  {
    Mask00FF(op);
  }

  /** Top nibbles 1 to 7, 9 and A to D decode by the top nibble alone. */
  lemma TopNibbleDecodes(op: int)
    requires FirstNibble(op) in {0x1, 0x2, 0x3, 0x4, 0x5, 0x6, 0x7, 0x9, 0xA, 0xB, 0xC, 0xD}
    ensures Decode(op).Some?
    ensures Decode(op) == ByTopNibble(FirstNibble(op))
  {
    TopNibbleRows(FirstNibble(op), ThirdNibble(op), FourthNibble(op));
  }

  lemma TopNibbleRows(n1: int, n3: int, n4: int)
    requires n1 in {0x1, 0x2, 0x3, 0x4, 0x5, 0x6, 0x7, 0x9, 0xA, 0xB, 0xC, 0xD}
    ensures ByTopNibble(n1).Some? && Table(n1, n3, n4) == ByTopNibble(n1)
  {
  }

  /** In the `8XY?` family the last nibble picks the member. */
  lemma ArithmeticDecodes(op: int)
    requires FirstNibble(op) == 0x8
    requires FourthNibble(op) <= 7 || FourthNibble(op) == 0xE
    ensures Decode(op).Some?
    ensures Decode(op) == ArithmeticFamily(FourthNibble(op))
  {
    ArithmeticRows(FirstNibble(op), ThirdNibble(op), FourthNibble(op));
  }

  lemma ArithmeticRows(n1: int, n3: int, n4: int)
    requires n1 == 0x8 && (0 <= n4 <= 7 || n4 == 0xE)
    ensures ArithmeticFamily(n4).Some? && Table(n1, n3, n4) == ArithmeticFamily(n4)
  {
  }

  /** In the `EX??` family the low bytes 9E and A1 pick the member. */
  lemma KeyDecodes(op: int)
    requires FirstNibble(op) == 0xE
    ensures LowByte(op) == 0x9E ==> Decode(op) == Some(XEX9E)
    ensures LowByte(op) == 0xA1 ==> Decode(op) == Some(XEXA1)
  {
    LowByteNibbles(op);
    KeyRows(FirstNibble(op), ThirdNibble(op), FourthNibble(op), LowByte(op));
  }

  lemma KeyRows(n1: int, n3: int, n4: int, low: int)
    requires n1 == 0xE && low == 16 * n3 + n4
    ensures low == 0x9E ==> Table(n1, n3, n4) == Some(XEX9E)
    ensures low == 0xA1 ==> Table(n1, n3, n4) == Some(XEXA1)
  {
  }

  /** In the `FX??` family the nine listed low bytes pick the member. */
  lemma MiscDecodes(op: int)
    requires FirstNibble(op) == 0xF
    requires LowByte(op) in {0x07, 0x0A, 0x15, 0x18, 0x1E, 0x29, 0x33, 0x55, 0x65}
    ensures Decode(op).Some?
    ensures Decode(op) == MiscFamily(LowByte(op))
  {
    LowByteNibbles(op);
    MiscRows(FirstNibble(op), ThirdNibble(op), FourthNibble(op), LowByte(op));
  }

  lemma MiscRows(n1: int, n3: int, n4: int, low: int)
    requires n1 == 0xF && low == 16 * n3 + n4
    requires low in {0x07, 0x0A, 0x15, 0x18, 0x1E, 0x29, 0x33, 0x55, 0x65}
    ensures MiscFamily(low).Some? && Table(n1, n3, n4) == MiscFamily(low)
  {
  }

  /** An opcode no family claims falls to the second `match`: a third nibble
      of E or F (all of the bits 0x00E0) gives `00EE` when the fourth nibble
      is E or F too (all of 0x00EE), and `00E0` otherwise; anything else gives
      nothing. */
  lemma LeftoverDecodes(op: int)
    requires Family(FirstNibble(op), ThirdNibble(op), FourthNibble(op)).None?
    ensures Decode(op) == Some(X00EE) <==> ThirdNibble(op) >= 0xE && FourthNibble(op) >= 0xE
    ensures Decode(op) == Some(X00E0) <==> ThirdNibble(op) >= 0xE && FourthNibble(op) < 0xE
    ensures Decode(op).None? <==> ThirdNibble(op) < 0xE
  {
  }

  /** The table gives nothing exactly when no family claims the nibbles and
      the third is below E, and it never gives the `0NNN` member. */
  lemma TableNone(n1: int, n3: int, n4: int)
    ensures Table(n1, n3, n4).None? <==> Family(n1, n3, n4).None? && n3 < 0xE
    ensures Table(n1, n3, n4) != Some(X0NNN)
  {
  }

  /** `decode` returns nothing exactly when no family claims the opcode and
      its third nibble is below E; it never returns the `0NNN` member. */
  lemma DecodeNone(op: int)
    ensures Decode(op).None? <==> Family(FirstNibble(op), ThirdNibble(op), FourthNibble(op)).None? && ThirdNibble(op) < 0xE
    ensures Decode(op) != Some(X0NNN)
  {
    TableNone(FirstNibble(op), ThirdNibble(op), FourthNibble(op));
  }

  /** The contract of `Decode` at one opcode whose nibbles are given. */
  lemma DecodeAt(op: int, n1: int, n3: int, n4: int)
    requires n1 == (op / 4096) % 16 && n3 == (op / 16) % 16 && n4 == op % 16
    ensures Decode(op) == Table(n1, n3, n4)
  {
  }

  /** 0x80F8 is claimed by no family: its bits 0x00E0 are set but not all
      of 0x00EE, so it decodes as `00E0`. */
  lemma LeftoverClearExample()
    ensures Decode(0x80F8) == Some(X00E0)
  {
    DecodeAt(0x80F8, 8, 0xF, 8);
  }

  /** 0xE0EF is claimed by no family and has all the bits 0x00EE, so it
      decodes as `00EE`. */
  lemma LeftoverReturnExample()
    ensures Decode(0xE0EF) == Some(X00EE)
  {
    DecodeAt(0xE0EF, 0xE, 0xE, 0xF);
  }

  /** 0x8008 is claimed by no family and lacks the bits 0x00E0: nothing. */
  lemma NoneExample()
    ensures Decode(0x8008) == None
  {
    DecodeAt(0x8008, 8, 0, 8);
  }
}

=== FILE: keypad.dfy ===
/** `Keypad`: the sixteen key names and the one key pressed last. */
module Keypads {
  import opened Python
  import opened Strings

  datatype Keypad = Keypad(keys: string, pressed: Option<string>)

  /** `Keypad()`: the hexadecimal key names and no key pressed. */
  function Init(): (r: Keypad)
    ensures r.pressed == None
    ensures |r.keys| == 16 && forall n :: 0 <= n < 16 ==> HexValue(r.keys[n]) == Some(n)
  {
    Keypad(HexDigits, None)
  }

  /** `press_key(key)`: a string that occurs in the key names, the empty
      string and runs such as "AB" included, becomes the pressed key; anything
      else raises `ValueError`. */
  function Press(kp: Keypad, key: Value): (r: Result<Keypad>)
    ensures r.Ok? <==> key.Str? && IsSubstring(key.s, kp.keys)
    ensures r.Ok? ==> r.value == kp.(pressed := Some(key.s))
    ensures r.Raise? ==> r.error == ValueError
  {
    match key
    case Int(_) => Raise(ValueError)
    case Str(s) =>
      ContainsIsSubstring(kp.keys, s);
      if Contains(kp.keys, s) then Ok(kp.(pressed := Some(s))) else Raise(ValueError)
  }

  /** `get_pressed_key()`: on a keypad whose pressed key is one `press_key`
      accepted, the answer is such a key. */
  function PressedKey(kp: Keypad): (r: Option<string>)
    ensures PressedIsKey(kp) && r.Some? ==> IsSubstring(r.value, kp.keys)
  {
    kp.pressed
  }

  /** The last accepted press wins, and a rejected press changes nothing,
      since the caller keeps the keypad it had. */
  lemma LastPressWins(kp: Keypad, a: Value, b: Value)
    requires Press(kp, a).Ok?
    ensures Press(Press(kp, a).value, b).Ok? ==> PressedKey(Press(Press(kp, a).value, b).value) == Some(b.s)
  {
  }

  /** A press as its caller sees it: on `ValueError` the keypad stays as it
      was. */
  function Step(kp: Keypad, key: Value): Keypad {
    var r := Press(kp, key);
    if r.Ok? then r.value else kp
  }

  /** A run of presses, each applied to the keypad the previous one left. */
  function PressAll(kp: Keypad, keys: seq<Value>): Keypad
    decreases |keys|
  {
    if |keys| == 0 then kp else PressAll(Step(kp, keys[0]), keys[1..])
  }

  /** The pressed key is `None` or one of the strings `press_key` accepts. */
  ghost predicate PressedIsKey(kp: Keypad) {
    kp.pressed.Some? ==> IsSubstring(kp.pressed.value, kp.keys)
  }

  /** Whatever presses a fresh keypad has seen, the key names are unchanged,
      `get_pressed_key` answers `None` or a substring of them, and it answers
      `None` only while no press has been accepted. */
  lemma {:induction false} PressedAfterPresses(kp: Keypad, keys: seq<Value>)
    requires PressedIsKey(kp)
    ensures PressAll(kp, keys).keys == kp.keys
    ensures PressedIsKey(PressAll(kp, keys))
    ensures PressedKey(PressAll(kp, keys)).None? <==>
      kp.pressed.None? && forall i :: 0 <= i < |keys| ==> Press(kp, keys[i]).Raise?
    decreases |keys|
  {
    if |keys| > 0 {
      var next := Step(kp, keys[0]);
      PressedAfterPresses(next, keys[1..]);
      if kp.pressed.None? && Press(kp, keys[0]).Raise? {
        assert next == kp;
        forall i | 0 <= i < |keys|
          ensures Press(kp, keys[i]).Raise? <==> (i == 0 || Press(next, keys[1..][i - 1]).Raise?)
        {
        }
      }
    }
  }

  /** A fresh keypad meets the invariant, so every keypad it turns into
      answers `None` or a substring of "0123456789ABCDEF". */
  lemma PressedIsHexRun(keys: seq<Value>)
    ensures PressAll(Init(), keys).keys == HexDigits
    ensures PressedKey(PressAll(Init(), keys)).Some? ==> IsSubstring(PressedKey(PressAll(Init(), keys)).value, HexDigits)
  {
    PressedAfterPresses(Init(), keys);
  }

  /** A string found at some position of the key names is accepted. */
  lemma AcceptsOccurrence(kp: Keypad, s: string, i: nat)
    requires i + |s| <= |kp.keys| && kp.keys[i..i + |s|] == s
    ensures Press(kp, Str(s)) == Ok(kp.(pressed := Some(s)))
  {
    assert IsSubstring(s, kp.keys);
  }

  /** Every key name on its own is accepted. */
  lemma AcceptsKeyName(n: nat)
    requires n < 16
    ensures Press(Init(), Str([HexDigits[n]])) == Ok(Keypad(HexDigits, Some([HexDigits[n]])))
  {
    AcceptsOccurrence(Init(), [HexDigits[n]], n);
  }

  /** The keypad tests press "1" and "A". */
  lemma AcceptExamples()
    ensures Press(Init(), Str("1")) == Ok(Keypad(HexDigits, Some("1")))
    ensures Press(Init(), Str("A")) == Ok(Keypad(HexDigits, Some("A")))
  {
    AcceptsKeyName(1);
    AcceptsKeyName(10);
  }

  /** Being a substring test, the check also accepts "" and "AB". */
  lemma AcceptRuns()
    ensures Press(Init(), Str("")).Ok? && Press(Init(), Str("AB")).Ok?
  {
    AcceptsOccurrence(Init(), "", 0);
    AcceptsOccurrence(Init(), "AB", 10);
  }

  /** "G" is not a key name, and an integer is not a string. */
  lemma RejectExamples()
    ensures Press(Init(), Str("G")) == Raise(ValueError)
    ensures Press(Init(), Int(1)) == Raise(ValueError)
  {
    SingleCharContains(HexDigits, 'G');
    ContainsIsSubstring(HexDigits, "G");
  }
}

=== FILE: memory.dfy ===
/** `Memory`: a fixed-size list of byte cells with checked reads and writes.
    Addresses and stored values are non-negative here; see README.md. */
module Memories {
  import opened Python
  import opened Bits

  /** The size `Memory()` gets when none is given. */
  const DefaultSize: int := 4096

  /** `size` is the requested size; `cells` is the list `[0] * size`, which is
      empty for a size of zero or less. */
  datatype Memory = Memory(size: int, cells: seq<nat>)

  /** The shape every memory has: as many cells as its (non-negative) size. */
  predicate Valid(m: Memory) {
    |m.cells| == (if m.size > 0 then m.size else 0)
  }

  /** Every cell holds a byte, as writes ensure. */
  predicate AllBytes(m: Memory) {
    forall a :: 0 <= a < |m.cells| ==> m.cells[a] < 256
  }

  /** `Memory(size)`: every cell zero. */
  function New(size: int): (r: Memory)
    ensures Valid(r) && AllBytes(r) && r.size == size
    ensures forall a :: 0 <= a < |r.cells| ==> r.cells[a] == 0
  {
    Memory(size, seq(if size > 0 then size else 0, _ => 0))
  }

  /** `_validate_address`: the chained test `0 < address > size` raises, so an
      address equal to the size is accepted. */
  function ValidateAddress(m: Memory, address: nat): (r: Result<bool>)
    ensures r.Ok? ==> r.value
    ensures r.Raise? ==> r.error == ValueError
  {
    if 0 < address && address > m.size then Raise(ValueError) else Ok(true)
  }

  /** `memory[address]`: validation first, then the list index. */
  function Read(m: Memory, address: nat): (r: Result<nat>)
    ensures r.Ok? ==> address < |m.cells| && r.value == m.cells[address]
    ensures Valid(m) ==> (r.Ok? <==> address < |m.cells|)
  {
    var _ :- ValidateAddress(m, address);
    Index(m.cells, address)
  }

  /** `memory[address] = value`: validation, then the width check, then the
      list assignment; it returns the cell it has just stored into. */
  function Write(m: Memory, address: nat, value: nat): (r: Result<(Memory, int)>)
    ensures r.Ok? ==> address < |m.cells| && value < 256
    ensures Valid(m) ==> (r.Ok? <==> address < |m.cells| && value < 256)
    ensures r.Ok? ==> r.value.0.size == m.size && (Valid(m) ==> Valid(r.value.0))
    ensures r.Ok? ==> (AllBytes(m) ==> AllBytes(r.value.0))
    ensures r.Ok? ==> r.value.1 == value
    ensures r.Ok? ==> r.value.0.cells == m.cells[address := value]
  {
    var _ :- ValidateAddress(m, address);
    Pow2Table();
    BitLengthBound(value, 8);
    if BitLength(value) > 8 then Raise(ValueError)
    else
      var cells :- Update(m.cells, address, value);
      Ok((Memory(m.size, cells), cells[address]))
  }

  /** Validation fails exactly past the size: the address equal to the size
      is let through, so the bound is off by one. */
  lemma ValidationBound(m: Memory, address: nat)
    ensures ValidateAddress(m, address).Ok? <==> address <= m.size || address == 0
    ensures m.size >= 0 ==> ValidateAddress(m, m.size).Ok? && ValidateAddress(m, m.size + 1).Raise?
  {
  }

  /** Which exception a failed read raises: `ValueError` past the size, and
      `IndexError` from the list at the size itself. */
  lemma ReadErrors(m: Memory, address: nat)
    requires Valid(m) && 0 <= m.size
    ensures address > m.size ==> Read(m, address) == Raise(ValueError)
    ensures address == m.size ==> Read(m, address) == Raise(IndexError)
  {
  }

  /** The read test: a fresh memory reads zero at address 0. */
  lemma ReadExample()
    ensures Read(New(DefaultSize), 0) == Ok(0)
  {
  }

  /** Which exception a failed write raises: the address check comes before
      the width check, and the list's own check comes last. */
  lemma WriteErrors(m: Memory, address: nat, value: nat)
    requires Valid(m) && 0 <= m.size
    ensures address > m.size ==> Write(m, address, value) == Raise(ValueError)
    ensures address <= m.size && value >= 256 ==> Write(m, address, value) == Raise(ValueError)
    ensures address == m.size && value < 256 ==> Write(m, address, value) == Raise(IndexError)
  {
    Pow2Table();
    BitLengthBound(value, 8);
  }

  /** Reading an address after writing it gives the written value; every other
      address reads as before. */
  lemma ReadAfterWrite(m: Memory, address: nat, value: nat, other: nat)
    requires Write(m, address, value).Ok?
    ensures Read(Write(m, address, value).value.0, address) == Ok(value)
    ensures other != address ==> Read(Write(m, address, value).value.0, other) == Read(m, other)
  {
  }

  /** The write of the memory test: 0x77 at address 80 reads back. */
  lemma WriteExample()
    ensures Write(New(DefaultSize), 80, 0x77).Ok?
    ensures Read(Write(New(DefaultSize), 80, 0x77).value.0, 80) == Ok(0x77)
  {
    ReadAfterWrite(New(DefaultSize), 80, 0x77, 80);
  }
}

=== FILE: nibble.dfy ===
/** The `Nibble` value type: a four-bit unsigned value. Python lets either an
    `int` or a `Nibble` stand as the other operand; a `Nibble` operand takes
    part through its `value`, so every operand here is an `int`. */
module Nibbles {
  import opened Bits
  import opened Python
  import Strings

  type Nibble = v: int | 0 <= v < 16

  /** `Nibble(value)`: only the low four bits are kept. */
  function Of(value: int): (r: Nibble)
    ensures r == value % 16
    ensures 0 <= value < 16 ==> r == value
  {
    Mask4(value);
    And(value, 0xF)
  }

  /** `str(nibble)`: one upper-case hexadecimal digit. */
  function Str(n: Nibble): (r: string)
    ensures |r| == 1
    ensures Strings.HexValue(r[0]) == Some(n)
  {
    Strings.HexDigitsRoundTrip(n, Strings.HexDigits[n]);
    [Strings.HexDigits[n]]
  }

  /** `nibble + other`, wrapping modulo 16. */
  function Add(n: Nibble, other: int): (r: Nibble)
    ensures r == (n + other) % 16
  {
    Of(n + other)
  }

  /** `other + nibble`: Python delegates to `Add`. */
  function RAdd(n: Nibble, other: int): (r: Nibble)
    ensures r == (other + n) % 16
  {
    Add(n, other)
  }

  /** `nibble - other`: the absolute difference, kept to four bits. */
  function Sub(n: Nibble, other: int): (r: Nibble)
    ensures r == Abs(n - other) % 16
  {
    Of(Abs(n - other))
  }

  /** `other - nibble`: Python delegates to `Sub`, so the operands are not swapped. */
  function RSub(n: Nibble, other: int): (r: Nibble)
    ensures r == Abs(other - n) % 16
  {
    Sub(n, other)
  }

  /** `nibble == other`: a nibble equals only an `int` in 0..15, and only the
      one it is built from. */
  function Eq(n: Nibble, other: int): (r: bool)
    ensures r <==> 0 <= other < 16 && Of(other) == n
  {
    n == other
  }

  /** The contract of `Of` at one argument: the worked examples below use
      this fact rather than unfold the mask on a literal. */
  lemma OfAt(x: int, r: int)
    requires r == x % 16
    ensures Of(x) == r
  {
  }

  /** The string examples of the nibble tests: one digit, upper case. */
  lemma StrExamples()
    ensures Str(0) == "0" && Str(1) == "1" && Str(7) == "7" && Str(15) == "F"
  {
  }

  /** Addition does not depend on which side the operand stands. */
  lemma AddCommutes(a: Nibble, b: Nibble)
    ensures Add(a, b) == Add(b, a) && RAdd(a, b) == Add(a, b)
  {
  }

  /** The addition examples of the nibble tests; `15 + 1` wraps to zero. */
  lemma AddExamples()
    ensures Add(1, 2) == 3 && Add(7, 8) == 15 && Add(15, 1) == 0 && RAdd(1, 1) == 2
  {
    OfAt(3, 3);
    OfAt(15, 15);
    OfAt(16, 0);
    OfAt(2, 2);
  }

  /** Subtraction is symmetric and yields zero exactly on equal nibbles. */
  lemma SubSymmetric(a: Nibble, b: Nibble)
    ensures Sub(a, b) == Sub(b, a) == RSub(b, a)
    ensures Sub(a, b) == 0 <==> a == b
  {
  }

  /** The subtraction examples of the nibble tests: `1 - 2` is 1. */
  lemma SubExamples()
    ensures Sub(1, 2) == 1 && Sub(2, 1) == 1 && RSub(1, 2) == 1
  {
    OfAt(1, 1);
  }

  /** A nibble built from an `int` compares equal to that `int` exactly when the
      `int` already fitted in four bits. */
  lemma EqAfterConstruction(value: int)
    ensures Eq(Of(value), value) <==> 0 <= value < 16
    ensures Eq(Of(value), Of(value % 16))
  {
  }
}

=== FILE: opcodes.dfy ===
/** The opcode enumeration and the bit-field getters used to pick opcodes apart. */
module Opcodes {
  import opened Bits
  import opened Python
  import Strings

  /** The members of `OPCODE`, in declaration order. */
  datatype Opcode =
    | X0NNN
    | X00E0
    | X00EE
    | X1NNN
    | X2NNN
    | X3XNN
    | X4XNN
    | X5XY0
    | X6XNN
    | X7XNN
    | X8XY0
    | X8XY1
    | X8XY2
    | X8XY3
    | X8XY4
    | X8XY5
    | X8XY6
    | X8XY7
    | X8XYE
    | X9XY0
    | XANNN
    | XBNNN
    | XCXNN
    | XDXYN
    | XEX9E
    | XEXA1
    | XFX07
    | XFX0A
    | XFX15
    | XFX18
    | XFX1E
    | XFX29
    | XFX33
    | XFX55
    | XFX65

  /** The member's Python name: `x` and the opcode's pattern. */
  function Name(op: Opcode): string {
    "x" + Pattern(op)
  }

  /** The four characters of an opcode's pattern, as the member's name spells
      them after the `x`. */
  function Spelling(op: Opcode): (char, char, char, char) {
    match op
    case X0NNN => ('0', 'N', 'N', 'N')
    case X00E0 => ('0', '0', 'E', '0')
    case X00EE => ('0', '0', 'E', 'E')
    case X1NNN => ('1', 'N', 'N', 'N')
    case X2NNN => ('2', 'N', 'N', 'N')
    case X3XNN => ('3', 'X', 'N', 'N')
    case X4XNN => ('4', 'X', 'N', 'N')
    case X5XY0 => ('5', 'X', 'Y', '0')
    case X6XNN => ('6', 'X', 'N', 'N')
    case X7XNN => ('7', 'X', 'N', 'N')
    case X8XY0 => ('8', 'X', 'Y', '0')
    case X8XY1 => ('8', 'X', 'Y', '1')
    case X8XY2 => ('8', 'X', 'Y', '2')
    case X8XY3 => ('8', 'X', 'Y', '3')
    case X8XY4 => ('8', 'X', 'Y', '4')
    case X8XY5 => ('8', 'X', 'Y', '5')
    case X8XY6 => ('8', 'X', 'Y', '6')
    case X8XY7 => ('8', 'X', 'Y', '7')
    case X8XYE => ('8', 'X', 'Y', 'E')
    case X9XY0 => ('9', 'X', 'Y', '0')
    case XANNN => ('A', 'N', 'N', 'N')
    case XBNNN => ('B', 'N', 'N', 'N')
    case XCXNN => ('C', 'X', 'N', 'N')
    case XDXYN => ('D', 'X', 'Y', 'N')
    case XEX9E => ('E', 'X', '9', 'E')
    case XEXA1 => ('E', 'X', 'A', '1')
    case XFX07 => ('F', 'X', '0', '7')
    case XFX0A => ('F', 'X', '0', 'A')
    case XFX15 => ('F', 'X', '1', '5')
    case XFX18 => ('F', 'X', '1', '8')
    case XFX1E => ('F', 'X', '1', 'E')
    case XFX29 => ('F', 'X', '2', '9')
    case XFX33 => ('F', 'X', '3', '3')
    case XFX55 => ('F', 'X', '5', '5')
    case XFX65 => ('F', 'X', '6', '5')
  }

  /** The pattern of an opcode: its spelling as a string. */
  function Pattern(op: Opcode): string {
    var (a, b, c, d) := Spelling(op);
    [a, b, c, d]
  }

  /** The member spelled by four characters, if any. */
  function BySpelling(chars: (char, char, char, char)): Option<Opcode> {
    match chars
    case ('0', 'N', 'N', 'N') => Some(X0NNN)
    case ('0', '0', 'E', '0') => Some(X00E0)
    case ('0', '0', 'E', 'E') => Some(X00EE)
    case ('1', 'N', 'N', 'N') => Some(X1NNN)
    case ('2', 'N', 'N', 'N') => Some(X2NNN)
    case ('3', 'X', 'N', 'N') => Some(X3XNN)
    case ('4', 'X', 'N', 'N') => Some(X4XNN)
    case ('5', 'X', 'Y', '0') => Some(X5XY0)
    case ('6', 'X', 'N', 'N') => Some(X6XNN)
    case ('7', 'X', 'N', 'N') => Some(X7XNN)
    case ('8', 'X', 'Y', '0') => Some(X8XY0)
    case ('8', 'X', 'Y', '1') => Some(X8XY1)
    case ('8', 'X', 'Y', '2') => Some(X8XY2)
    case ('8', 'X', 'Y', '3') => Some(X8XY3)
    case ('8', 'X', 'Y', '4') => Some(X8XY4)
    case ('8', 'X', 'Y', '5') => Some(X8XY5)
    case ('8', 'X', 'Y', '6') => Some(X8XY6)
    case ('8', 'X', 'Y', '7') => Some(X8XY7)
    case ('8', 'X', 'Y', 'E') => Some(X8XYE)
    case ('9', 'X', 'Y', '0') => Some(X9XY0)
    case ('A', 'N', 'N', 'N') => Some(XANNN)
    case ('B', 'N', 'N', 'N') => Some(XBNNN)
    case ('C', 'X', 'N', 'N') => Some(XCXNN)
    case ('D', 'X', 'Y', 'N') => Some(XDXYN)
    case ('E', 'X', '9', 'E') => Some(XEX9E)
    case ('E', 'X', 'A', '1') => Some(XEXA1)
    case ('F', 'X', '0', '7') => Some(XFX07)
    case ('F', 'X', '0', 'A') => Some(XFX0A)
    case ('F', 'X', '1', '5') => Some(XFX15)
    case ('F', 'X', '1', '8') => Some(XFX18)
    case ('F', 'X', '1', 'E') => Some(XFX1E)
    case ('F', 'X', '2', '9') => Some(XFX29)
    case ('F', 'X', '3', '3') => Some(XFX33)
    case ('F', 'X', '5', '5') => Some(XFX55)
    case ('F', 'X', '6', '5') => Some(XFX65)
    case _ => None
  }

  /** The member whose pattern is `s`, if any. */
  function ByPattern(s: string): Option<Opcode> {
    if |s| == 4 then BySpelling((s[0], s[1], s[2], s[3])) else None
  }

  /** Each member is found again from its pattern: no two members share a
      pattern, so no two share a name or a `repr`. */
  lemma PatternRoundTrip(op: Opcode)
    ensures ByPattern(Pattern(op)) == Some(op)
  {
    match op
      case X0NNN =>
      case X00E0 =>
      case X00EE =>
      case X1NNN =>
      case X2NNN =>
      case X3XNN =>
      case X4XNN =>
      case X5XY0 =>
      case X6XNN =>
      case X7XNN =>
      case X8XY0 =>
      case X8XY1 =>
      case X8XY2 =>
      case X8XY3 =>
      case X8XY4 =>
      case X8XY5 =>
      case X8XY6 =>
      case X8XY7 =>
      case X8XYE =>
      case X9XY0 =>
      case XANNN =>
      case XBNNN =>
      case XCXNN =>
      case XDXYN =>
      case XEX9E =>
      case XEXA1 =>
      case XFX07 =>
      case XFX0A =>
      case XFX15 =>
      case XFX18 =>
      case XFX1E =>
      case XFX29 =>
      case XFX33 =>
      case XFX55 =>
      case XFX65 =>
  }

  /** `repr(member)`: `0x` followed by the name without its leading `x`,
      upper-cased. The four characters after `0x` name the member back. */
  function Repr(op: Opcode): (r: string)
    ensures |r| == 6 && r[..2] == "0x"
    ensures ByPattern(r[2..]) == Some(op)
  {
    PatternShape(op);
    PatternRoundTrip(op);
    assert Name(op)[1..] == Pattern(op);
    Strings.UpperUnchanged(Pattern(op));
    var r := "0x" + Strings.Upper(Name(op)[1..]);
    assert r[2..] == Pattern(op);
    r
  }

  /** Every pattern has four characters, none a lower-case letter. */
  lemma PatternShape(op: Opcode)
    ensures |Pattern(op)| == 4 && Strings.NoLowerCase(Pattern(op))
  {
    match op
      case X0NNN =>
      case X00E0 =>
      case X00EE =>
      case X1NNN =>
      case X2NNN =>
      case X3XNN =>
      case X4XNN =>
      case X5XY0 =>
      case X6XNN =>
      case X7XNN =>
      case X8XY0 =>
      case X8XY1 =>
      case X8XY2 =>
      case X8XY3 =>
      case X8XY4 =>
      case X8XY5 =>
      case X8XY6 =>
      case X8XY7 =>
      case X8XYE =>
      case X9XY0 =>
      case XANNN =>
      case XBNNN =>
      case XCXNN =>
      case XDXYN =>
      case XEX9E =>
      case XEXA1 =>
      case XFX07 =>
      case XFX0A =>
      case XFX15 =>
      case XFX18 =>
      case XFX1E =>
      case XFX29 =>
      case XFX33 =>
      case XFX55 =>
      case XFX65 =>
  }

  /** `repr` drops only the leading `x`: the names carry no lower-case letter
      for `upper()` to change. */
  lemma ReprDropsX(op: Opcode)
    ensures Repr(op) == "0x" + Name(op)[1..]
  {
    PatternShape(op);
    assert Name(op)[1..] == Pattern(op);
    Strings.UpperUnchanged(Pattern(op));
  }

  /** `get_high_byte`: `(value & 0xFF00) >> 8`. */
  function HighByte(value: int): (r: int)
    ensures 0 <= r < 256
    ensures r == (value / 256) % 256
  {
    FieldFF00(value);
    ShiftRight(And(value, 0xFF00), 8)
  }

  /** `get_low_byte`: `value & 0x00FF`. */
  function LowByte(value: int): (r: int)
    ensures 0 <= r < 256
    ensures r == value % 256
  {
    Mask8(value);
    And(value, 0x00FF)
  }

  /** `get_first_nibble`: `(value & 0xF000) >> 12`. */
  function FirstNibble(value: int): (r: int)
    ensures 0 <= r < 16
    ensures r == (value / 4096) % 16
  {
    FieldF000(value);
    ShiftRight(And(value, 0xF000), 12)
  }

  /** `get_second_nibble`: `(value & 0x0F00) >> 8`. */
  function SecondNibble(value: int): (r: int)
    ensures 0 <= r < 16
    ensures r == (value / 256) % 16
  {
    FieldF00(value);
    ShiftRight(And(value, 0x0F00), 8)
  }

  /** `get_third_nibble`: `(value & 0x00F0) >> 4`. */
  function ThirdNibble(value: int): (r: int)
    ensures 0 <= r < 16
    ensures r == (value / 16) % 16
  {
    FieldF0(value);
    ShiftRight(And(value, 0x00F0), 4)
  }

  /** `get_fourth_nibble`: `value & 0x000F`. */
  function FourthNibble(value: int): (r: int)
    ensures 0 <= r < 16
    ensures r == value % 16
  {
    Mask4(value);
    And(value, 0x000F)
  }

  /** The getters split a 16-bit opcode without loss. */
  lemma Recombine(v: int)
    requires 0 <= v < 0x1_0000
    ensures 256 * HighByte(v) + LowByte(v) == v
    ensures 4096 * FirstNibble(v) + 256 * SecondNibble(v) + 16 * ThirdNibble(v) + FourthNibble(v) == v
  {
    assert HighByte(v) == v / 256 by {
      DivModUnique(v / 256, 256, 0, v / 256);
    }
    assert FirstNibble(v) == v / 4096 by {
      DivModUnique(v / 4096, 16, 0, v / 4096);
    }
    FourNibbles(v);
  }

  /** The nibble getters agree with the byte getters, for every integer. */
  lemma GettersAgree(v: int)
    ensures FirstNibble(v) == ShiftRight(HighByte(v), 4)
    ensures SecondNibble(v) == And(HighByte(v), 0xF)
    ensures ThirdNibble(v) == ShiftRight(LowByte(v), 4)
  {
    Pow2Table();
    ModDiv(v / 256, 16, 16);
    DivDiv(v, 256, 16);
    ModMod(v / 256, 16, 16);
    LowField(HighByte(v), 4);
    ModDiv(v, 16, 16);
  }

  /** Distinct members have distinct patterns, names and `repr`s. */
  lemma Distinct(a: Opcode, b: Opcode)
    requires a != b
    ensures Pattern(a) != Pattern(b) && Name(a) != Name(b) && Repr(a) != Repr(b)
  {
    PatternRoundTrip(a);
    PatternRoundTrip(b);
    ReprDropsX(a);
    ReprDropsX(b);
    assert Name(a)[1..] == Pattern(a) && Name(b)[1..] == Pattern(b);
    assert Repr(a)[2..] == Pattern(a) && Repr(b)[2..] == Pattern(b);
  }
}

=== FILE: processor.dfy ===
/** `Processor`: the CPU state and the opcode handlers the emulator
    implements, each a transition from one state to the next. */
module Processors {
  import opened Python
  import opened Bits
  import Opcodes
  import Memories
  import Registries

  /** Where `reset` puts the program counter. */
  const StartAddress: nat := 0x200

  /** The number of stack slots `reset` allocates. */
  const StackSize: nat := 16

  /** The processor's attributes. `registry` is the register file every
      handler uses; `registries` is the one `reset` assigns, which no handler
      reads. The stack pointer is an `int`: returning with an empty stack takes
      it below zero. */
  datatype Processor = Processor(
    memory: Memories.Memory,
    registry: Registries.Registry,
    registries: Registries.Registry,
    carryFlag: int,
    pc: nat,
    index: nat,
    soundTimer: nat,
    delayTimer: nat,
    stack: seq<nat>,
    sp: int)

  /** `reset()`: registers, flags, timers and stack back to their start
      values; `registry` and the memory are left as they are. */
  function Reset(p: Processor): (r: Processor)
    ensures r.memory == p.memory && r.registry == p.registry
    ensures r.registries == Registries.New([])
    ensures r.carryFlag == 0 && r.pc == StartAddress && r.index == 0
    ensures r.soundTimer == 0 && r.delayTimer == 0
    ensures |r.stack| == StackSize && r.sp == 0
    ensures forall i :: 0 <= i < |r.stack| ==> r.stack[i] == 0
  {
    p.(registries := Registries.New(seq(Registries.DefaultCount, _ => 0)),
       carryFlag := 0,
       pc := StartAddress,
       index := 0,
       soundTimer := 0,
       delayTimer := 0,
       stack := seq(StackSize, _ => 0),
       sp := 0)
  }

  /** `Processor(memory, graphics, keypad)`: a default register file, then
      `reset`. */
  function Init(memory: Memories.Memory): (r: Processor)
    ensures r == Reset(r) && r.memory == memory
    ensures r.registry == Registries.New([])
    ensures forall k :: k in r.registry.data <==> k.Int? && 0 <= k.i < Registries.DefaultCount
    ensures forall k :: k in r.registry.data ==> r.registry.data[k] == 0
  {
    Reset(Processor(memory, Registries.New([]), Registries.New([]), 0, 0, 0, 0, 0, [], 0))
  }

  /** `fetch_opcode()`: the byte at `pc` shifted left by eight, or-ed with the
      byte after it. */
  function Fetch(p: Processor): (r: Result<int>)
    ensures r.Ok? ==> p.pc + 1 < |p.memory.cells|
    ensures Memories.Valid(p.memory) ==> (r.Ok? <==> p.pc + 1 < |p.memory.cells|)
    ensures r.Ok? && Memories.AllBytes(p.memory) ==>
      r.value == 256 * p.memory.cells[p.pc] + p.memory.cells[p.pc + 1]
  {
    var high :- Memories.Read(p.memory, p.pc);
    var low :- Memories.Read(p.memory, p.pc + 1);
    Pow2Table();
    assert low < 256 ==> OrNat(ShiftLeft(high, 8), low) == 256 * high + low by {
      if low < 256 {
        OrShifted(high, 8, low);
      }
    }
    Ok(OrNat(ShiftLeft(high, 8), low))
  }

  /** `opcode & 0x0FFF`: the address operand. */
  function Address(op: int): (r: nat)
    ensures r == op % 4096
  {
    Pow2Table();
    LowField(op, 12);
    And(op, 0x0FFF)
  }

  /** `opcode_ANNN`: the index register takes the address; `pc` moves on by 2. */
  function OpcodeANNN(p: Processor, op: int): (r: Processor)
    ensures r.index == op % 4096 && r.pc == p.pc + 2
    ensures r == p.(index := r.index, pc := r.pc)
  {
    p.(index := Address(op), pc := p.pc + 2)
  }

  /** `opcode_000E`: `pc` becomes the slot at the stack pointer plus 2, then
      the pointer goes down by one. A pointer outside the stack raises. */
  function Opcode000E(p: Processor): (r: Result<Processor>)
    ensures r.Ok? <==> -|p.stack| <= p.sp < |p.stack|
    ensures r.Raise? ==> r.error == IndexError
    ensures r.Ok? ==> r.value == p.(pc := r.value.pc, sp := p.sp - 1)
    ensures r.Ok? && 0 <= p.sp ==> r.value.pc == p.stack[p.sp] + 2
    ensures r.Ok? && p.sp < 0 ==> r.value.pc == p.stack[|p.stack| + p.sp] + 2
  {
    var top :- Index(p.stack, p.sp);
    Ok(p.(pc := top + 2, sp := p.sp - 1))
  }

  /** `opcode_1NNN`: jump; the stack is not touched. */
  function Opcode1NNN(p: Processor, op: int): (r: Processor)
    ensures r.pc == op % 4096
    ensures r == p.(pc := r.pc)
  {
    p.(pc := Address(op))
  }

  /** `opcode_2NNN`: the current `pc` (not the one after it) goes into the
      slot at the stack pointer, the pointer goes up by one, and `pc` jumps. */
  function Opcode2NNN(p: Processor, op: int): (r: Result<Processor>)
    ensures r.Ok? <==> -|p.stack| <= p.sp < |p.stack|
    ensures r.Raise? ==> r.error == IndexError
    ensures r.Ok? ==> r.value == p.(stack := r.value.stack, sp := p.sp + 1, pc := op % 4096)
    ensures r.Ok? && 0 <= p.sp ==> r.value.stack == p.stack[p.sp := p.pc]
    ensures r.Ok? && p.sp < 0 ==> r.value.stack == p.stack[|p.stack| + p.sp := p.pc]
  {
    var stack :- Update(p.stack, p.sp, p.pc);
    Ok(p.(stack := stack, sp := p.sp + 1, pc := Address(op)))
  }

  /** `(opcode & 0x0F00) >> 8`, the register X operand. */
  function RegisterX(op: int): (r: nat)
    ensures r == (op / 256) % 16
  {
    Opcodes.SecondNibble(op)
  }

  /** `(opcode & 0x00F0) >> 4`, the register Y operand. */
  function RegisterY(op: int): (r: nat)
    ensures r == (op / 16) % 16
  {
    Opcodes.ThirdNibble(op)
  }

  /** `self.registry[x]` for an integer `x` the register file holds. */
  function RegisterValue(p: Processor, x: int): (r: int)
    requires Int(x) in p.registry.data
    ensures r == p.registry.data[Int(x)]
  {
    Registries.Get(p.registry, Int(x)).value
  }

  /** `opcode_3NNN`: raises unless X is a key of the register file; skips
      (adds 4 to `pc`) when VX equals NN, and otherwise changes nothing. */
  function Opcode3NNN(p: Processor, op: int): (r: Result<Processor>)
    ensures r.Ok? <==> Int(RegisterX(op)) in p.registry.data
    ensures r.Raise? ==> r.error == ValueError
    ensures r.Ok? ==> r.value == p.(pc := r.value.pc)
    ensures r.Ok? ==> (r.value.pc == p.pc + 4 <==> p.registry.data[Int(RegisterX(op))] == op % 256)
    ensures r.Ok? ==> (r.value.pc == p.pc <==> p.registry.data[Int(RegisterX(op))] != op % 256)
  {
    var x := RegisterX(op);
    if Int(x) !in p.registry.data then Raise(ValueError)
    else
      var value := Opcodes.LowByte(op);
      if RegisterValue(p, x) == value then Ok(p.(pc := p.pc + 4)) else Ok(p)
  }

  /** `opcode_4NNN`: as `opcode_3NNN`, skipping when VX differs from NN. */
  function Opcode4NNN(p: Processor, op: int): (r: Result<Processor>)
    ensures r.Ok? <==> Int(RegisterX(op)) in p.registry.data
    ensures r.Raise? ==> r.error == ValueError
    ensures r.Ok? ==> r.value == p.(pc := r.value.pc)
    ensures r.Ok? ==> (r.value.pc == p.pc + 4 <==> p.registry.data[Int(RegisterX(op))] != op % 256)
    ensures r.Ok? ==> (r.value.pc == p.pc <==> p.registry.data[Int(RegisterX(op))] == op % 256)
  {
    var x := RegisterX(op);
    if Int(x) !in p.registry.data then Raise(ValueError)
    else
      var value := Opcodes.LowByte(op);
      if RegisterValue(p, x) != value then Ok(p.(pc := p.pc + 4)) else Ok(p)
  }

  /** `opcode_5XY0`: raises unless X and Y are both keys; skips when VX
      equals VY. */
  function Opcode5XY0(p: Processor, op: int): (r: Result<Processor>)
    ensures r.Ok? <==> Int(RegisterX(op)) in p.registry.data && Int(RegisterY(op)) in p.registry.data
    ensures r.Raise? ==> r.error == ValueError
    ensures r.Ok? ==> r.value == p.(pc := r.value.pc)
    ensures r.Ok? ==> (r.value.pc == p.pc + 4 <==>
      p.registry.data[Int(RegisterX(op))] == p.registry.data[Int(RegisterY(op))])
    ensures r.Ok? ==> (r.value.pc == p.pc <==>
      p.registry.data[Int(RegisterX(op))] != p.registry.data[Int(RegisterY(op))])
  {
    var x, y := RegisterX(op), RegisterY(op);
    if Int(x) !in p.registry.data || Int(y) !in p.registry.data then Raise(ValueError)
    else if RegisterValue(p, x) == RegisterValue(p, y) then Ok(p.(pc := p.pc + 4))
    else Ok(p)
  }

  /** `opcode_6XNN`: VX takes NN, adding X to the register file if it was not
      there; `pc` does not move. */
  function Opcode6XNN(p: Processor, op: int): (r: Processor)
    ensures r == p.(registry := r.registry)
    ensures r.registry.data == p.registry.data[Int(RegisterX(op)) := op % 256]
  {
    var x := RegisterX(op);
    var value := Opcodes.LowByte(op);
    p.(registry := Registries.Set(p.registry, Int(x), value).value)
  }

  /** `update_timers()`: each timer above zero goes down by one; the beep
      the sound timer prints on its way from 1 to 0 is not modelled. */
  function UpdateTimers(p: Processor): (r: Processor)
    ensures r == p.(delayTimer := r.delayTimer, soundTimer := r.soundTimer)
    ensures p.delayTimer > 0 ==> r.delayTimer == p.delayTimer - 1
    ensures p.delayTimer == 0 ==> r.delayTimer == 0
    ensures p.soundTimer > 0 ==> r.soundTimer == p.soundTimer - 1
    ensures p.soundTimer == 0 ==> r.soundTimer == 0
  {
    var p1 := if p.delayTimer > 0 then p.(delayTimer := p.delayTimer - 1) else p;
    if p1.soundTimer > 0 then p1.(soundTimer := p1.soundTimer - 1) else p1
  }

  /** `n` calls of `update_timers`. */
  function Ticks(p: Processor, n: nat): Processor
    decreases n
  {
    if n == 0 then p else Ticks(UpdateTimers(p), n - 1)
  }

  function Max0(x: int): nat {
    if x > 0 then x else 0
  }

  /** After `n` updates each timer has counted down by `n`, stopping at zero,
      and nothing else has changed. */
  lemma {:induction false} TicksCountDown(p: Processor, n: nat)
    ensures Ticks(p, n).delayTimer == Max0(p.delayTimer - n)
    ensures Ticks(p, n).soundTimer == Max0(p.soundTimer - n)
    ensures Ticks(p, n) == p.(delayTimer := Ticks(p, n).delayTimer, soundTimer := Ticks(p, n).soundTimer)
    decreases n
  {
    if n > 0 {
      TicksCountDown(UpdateTimers(p), n - 1);
    }
  }

  /** `reset` forgets everything but the memory and `registry`, so a second
      reset changes nothing. */
  lemma ResetForgets(p: Processor, q: Processor)
    ensures Reset(Reset(p)) == Reset(p)
    ensures p.memory == q.memory && p.registry == q.registry ==> Reset(p) == Reset(q)
  {
  }

  /** A call followed by a return leaves the stack pointer where it was but
      does not come back after the call: the return reads the slot above the
      one the call wrote. With the pointer on the last slot, the call succeeds
      and the return raises. */
  lemma CallThenReturn(p: Processor, op: int)
    requires 0 <= p.sp < |p.stack|
    ensures Opcode2NNN(p, op).Ok?
    ensures p.sp + 1 < |p.stack| ==>
      Opcode000E(Opcode2NNN(p, op).value) == Ok(p.(stack := p.stack[p.sp := p.pc], pc := p.stack[p.sp + 1] + 2))
    ensures p.sp + 1 == |p.stack| ==> Opcode000E(Opcode2NNN(p, op).value) == Raise(IndexError)
  {
    ReturnAbove(p, Opcode2NNN(p, op).value);
  }

  /** The return that follows a call reads the slot above the one written. */
  lemma ReturnAbove(p: Processor, called: Processor)
    requires 0 <= p.sp < |p.stack|
    requires called == p.(stack := p.stack[p.sp := p.pc], sp := p.sp + 1, pc := called.pc)
    ensures p.sp + 1 < |p.stack| ==> Opcode000E(called) == Ok(p.(stack := p.stack[p.sp := p.pc], pc := p.stack[p.sp + 1] + 2))
    ensures p.sp + 1 == |p.stack| ==> Opcode000E(called) == Raise(IndexError)
  {
  }

  /** Of `opcode_3NNN` and `opcode_4NNN` on the same opcode, exactly one
      skips and the other leaves `pc` where it was. */
  lemma SkipsComplement(p: Processor, op: int)
    requires Int(RegisterX(op)) in p.registry.data
    ensures Opcode3NNN(p, op).Ok? && Opcode4NNN(p, op).Ok?
    ensures Opcode3NNN(p, op).value.pc == p.pc + 4 <==> Opcode4NNN(p, op).value.pc == p.pc
    ensures Opcode4NNN(p, op).value.pc == p.pc + 4 <==> Opcode3NNN(p, op).value.pc == p.pc
  {
  }

  /** Setting VX to NN and then testing VX against the same NN skips, for
      every X, since `opcode_6XNN` adds a missing key. */
  lemma SetThenSkip(p: Processor, load: int, test: int)
    requires RegisterX(load) == RegisterX(test)
    requires load % 256 == test % 256
    ensures Opcode3NNN(Opcode6XNN(p, load), test).Ok?
    ensures Opcode3NNN(Opcode6XNN(p, load), test).value.pc == p.pc + 4
    ensures Opcode4NNN(Opcode6XNN(p, load), test).value.pc == p.pc
  {
  }

  /** A processor fresh from `Init` has no register 15: every skip on VF
      raises. */
  lemma FreshRejectsVF(m: Memories.Memory, op: int)
    requires RegisterX(op) == 15
    ensures Opcode3NNN(Init(m), op) == Raise(ValueError)
    ensures Opcode4NNN(Init(m), op) == Raise(ValueError)
    ensures Opcode5XY0(Init(m), op) == Raise(ValueError)
  {
  }

  /** A return on a fresh processor does not raise: the stack pointer 0 is
      a valid index, so `pc` becomes 2 and the pointer -1; a second return
      then reads the last slot, counting from the end. */
  lemma FreshReturns(m: Memories.Memory)
    ensures Opcode000E(Init(m)) == Ok(Init(m).(pc := 2, sp := -1))
    ensures Opcode000E(Init(m).(pc := 2, sp := -1)) == Ok(Init(m).(pc := 2, sp := -2))
  {
  }

  /** The two bytes a fetch combines are the high and low byte of the result. */
  lemma FetchBytes(p: Processor)
    requires Memories.AllBytes(p.memory)
    requires Fetch(p).Ok?
    ensures Opcodes.HighByte(Fetch(p).value) == p.memory.cells[p.pc]
    ensures Opcodes.LowByte(Fetch(p).value) == p.memory.cells[p.pc + 1]
  {
    var hi, lo := p.memory.cells[p.pc], p.memory.cells[p.pc + 1];
    DivModUnique(Fetch(p).value, 256, hi, lo);
    DivModUnique(hi, 256, 0, hi);
  }

  /** Where a fetch fails: past the size validation raises `ValueError`, at
      the size (for either byte) the list raises `IndexError`. */
  lemma FetchErrors(p: Processor)
    requires Memories.Valid(p.memory) && 0 <= p.memory.size
    ensures p.pc > p.memory.size ==> Fetch(p) == Raise(ValueError)
    ensures p.pc == p.memory.size || p.pc + 1 == p.memory.size ==> Fetch(p) == Raise(IndexError)
  {
  }

  /** The fetch tests: bytes A1 23 56 78 read at 0, 1 and 2. */
  lemma FetchExamples(p: Processor)
    requires p.memory == Memories.Memory(4, [0xA1, 0x23, 0x56, 0x78])
    ensures Fetch(p.(pc := 0)) == Ok(0xA123)
    ensures Fetch(p.(pc := 1)) == Ok(0x2356)
    ensures Fetch(p.(pc := 2)) == Ok(0x5678)
  {
    assert Memories.Valid(p.memory);
    assert Memories.AllBytes(p.memory);
  }
}

=== FILE: python.dfy ===
/** The parts of Python's runtime that the emulator leans on: the exceptions it
    raises, dynamically typed arguments, `abs`, and list indexing with negative
    indices. */
module Python {

  /** The exception classes the modelled code can raise. */
  datatype Exception = ValueError | IndexError | KeyError

  /** The outcome of a call that may raise. */
  datatype Result<+T> = Ok(value: T) | Raise(error: Exception) {

    predicate IsFailure() {
      Raise?
    }

    function PropagateFailure<U>(): Result<U>
      requires Raise?
    {
      Raise(error)
    }

    function Extract(): T
      requires Ok?
    {
      value
    }
  }

  /** A value that may be `None`. */
  datatype Option<+T> = None | Some(value: T)

  /** An argument whose Python type is checked at run time: an `int` or a `str`. */
  datatype Value = Int(i: int) | Str(s: string)

  function Abs(x: int): (r: nat)
    ensures r == x || r == -x
  {
    if x < 0 then -x else x
  }

  /** `s[i]` on a Python list: negative indices count from the end. */
  function Index<T>(s: seq<T>, i: int): (r: Result<T>)
    ensures r.Ok? <==> -|s| <= i < |s|
    ensures r.Ok? && 0 <= i ==> r.value == s[i]
    ensures r.Ok? && i < 0 ==> r.value == s[|s| + i]
  {
    if 0 <= i < |s| then Ok(s[i])
    else if -|s| <= i < 0 then Ok(s[|s| + i])
    else Raise(IndexError)
  }

  /** `s[i] = v` on a Python list: same index rule as `Index`, length unchanged. */
  function Update<T>(s: seq<T>, i: int, v: T): (r: Result<seq<T>>)
    ensures r.Ok? <==> -|s| <= i < |s|
    ensures r.Ok? ==> |r.value| == |s|
    ensures r.Ok? ==> Index(r.value, i) == Ok(v)
    ensures r.Ok? ==> forall j :: 0 <= j < |s| && j != i && j != |s| + i ==> r.value[j] == s[j]
  {
    if 0 <= i < |s| then Ok(s[i := v])
    else if -|s| <= i < 0 then Ok(s[|s| + i := v])
    else Raise(IndexError)
  }
}

=== FILE: registry.dfy ===
/** `Registry`: the register file, a dictionary whose keys may be given as
    register names ("V3", "vA", "b", "7") and are translated before use. */
module Registries {
  import opened Python
  import opened Strings

  /** The number of registers `Registry()` starts with: V0 to VE. */
  const DefaultCount: nat := 15

  /** The underlying dictionary. Keys are Python values: the translation lets
      a string that names no register through unchanged. */
  datatype Registry = Registry(data: map<Value, int>)

  /** `Registry(values)`: an empty (or missing) list stands for fifteen zeros;
      the list is numbered from 0. */
  function New(values: seq<int>): (r: Registry)
    ensures var n := if |values| == 0 then DefaultCount else |values|;
      forall k :: k in r.data <==> k.Int? && 0 <= k.i < n
    ensures forall i :: 0 <= i < |values| ==> Int(i) in r.data && r.data[Int(i)] == values[i]
    ensures |values| == 0 ==> forall k :: k in r.data ==> r.data[k] == 0
  {
    var vs := if |values| == 0 then seq(DefaultCount, _ => 0) else values;
    Registry(map i | 0 <= i < |vs| :: Int(i) := vs[i])
  }

  /** The register letters the translation knows, as `key.upper() in "ABCDEF"`
      tests them. */
  const Letters: string := "ABCDEF"

  /** `__transform_key`: an `int` passes through; a leading `v` or `V` is
      dropped by keeping the second character; a run of decimal digits becomes
      its number; a string whose upper case occurs in "ABCDEF" becomes 10 to 14
      for A to E and raises `ValueError` otherwise ("F", "", "AB", ...); any
      other string is kept as it is. */
  function TransformKey(key: Value): (r: Result<Value>)
    ensures key.Int? ==> r == Ok(key)
    ensures r.Ok? && r.value.Int? && key.Str? ==> 0 <= r.value.i
    ensures r.Raise? ==> key.Str? && (r.error == IndexError <==> |key.s| == 1 && LowerChar(key.s[0]) == 'v')
  {
    match key
    case Int(_) => Ok(key)
    case Str(s) =>
      var name :- DropPrefix(s);
      Translate(name)
  }

  /** The first step of `__transform_key` on a string: `key[1]` when the
      lower-cased key starts with "v". */
  function DropPrefix(s: string): (r: Result<string>)
    ensures r.Raise? <==> |s| == 1 && LowerChar(s[0]) == 'v'
    ensures r.Raise? ==> r.error == IndexError
    ensures r.Ok? && 0 < |s| && LowerChar(s[0]) == 'v' ==> r.value == [s[1]]
    ensures r.Ok? && (|s| == 0 || LowerChar(s[0]) != 'v') ==> r.value == s
  {
    assert 0 < |s| ==> Lower(s)[..1] == [LowerChar(s[0])];
    if StartsWith(Lower(s), "v") then
      if |s| < 2 then Raise(IndexError) else Ok([s[1]])
    else Ok(s)
  }

  /** The rest of `__transform_key`: digits, then register letters. */
  function Translate(name: string): (r: Result<Value>)
    ensures r.Ok? && r.value.Int? ==> 0 <= r.value.i
    ensures r.Raise? ==> r.error == ValueError
  {
    if IsDigit(name) then Ok(Int(DecimalValue(name)))
    else if Contains(Letters, Upper(name)) then
      var u := Upper(name);
      if u == "A" then Ok(Int(10))
      else if u == "B" then Ok(Int(11))
      else if u == "C" then Ok(Int(12))
      else if u == "D" then Ok(Int(13))
      else if u == "E" then Ok(Int(14))
      else Raise(ValueError)
    else Ok(Str(name))
  }

  /** `registry[key]`: a key missing after translation raises `KeyError`. */
  function Get(reg: Registry, key: Value): (r: Result<int>)
    ensures r.Ok? <==> TransformKey(key).Ok? && TransformKey(key).value in reg.data
    ensures r.Ok? ==> r.value == reg.data[TransformKey(key).value]
  {
    var k :- TransformKey(key);
    if k in reg.data then Ok(reg.data[k]) else Raise(KeyError)
  }

  /** `registry[key] = value`: stores under the translated key, adding it if
      it was missing. */
  function Set(reg: Registry, key: Value, value: int): (r: Result<Registry>)
    ensures r.Ok? <==> TransformKey(key).Ok?
    ensures r.Ok? ==> r.value.data.Keys == reg.data.Keys + {TransformKey(key).value}
  {
    var k :- TransformKey(key);
    Ok(Registry(reg.data[k := value]))
  }

  /** The register a one-character name denotes: its hexadecimal value, in
      either case. */
  function RegisterNumber(c: char): Option<nat> {
    HexValue(UpperChar(c))
  }

  /** A decimal digit names the register of its value. */
  lemma DigitName(c: char)
    requires IsDigitChar(c)
    ensures Translate([c]) == Ok(Int(RegisterNumber(c).value))
    ensures RegisterNumber(c).value < 10
  {
    assert [c][..0] == [];
    assert DecimalValue([c]) == DigitValue(c);
  }

  /** A letter A to E, in either case, names register 10 to 14; F raises. */
  lemma LetterName(c: char)
    requires UpperChar(c) in Letters
    ensures RegisterNumber(c).value < 15 ==> Translate([c]) == Ok(Int(RegisterNumber(c).value))
    ensures RegisterNumber(c) == Some(15) ==> Translate([c]) == Raise(ValueError)
  {
    var u := UpperChar(c);
    assert Upper([c]) == [u];
    SingleCharContains(Letters, u);
    assert ([u] == "A" <==> u == 'A') && ([u] == "B" <==> u == 'B') && ([u] == "C" <==> u == 'C');
    assert ([u] == "D" <==> u == 'D') && ([u] == "E" <==> u == 'E');
    assert !IsDigit([c]) by {
      assert !IsDigitChar([c][0]);
    }
  }

  /** A character that is no hexadecimal digit is kept as a string key. */
  lemma OtherName(c: char)
    requires RegisterNumber(c).None?
    ensures Translate([c]) == Ok(Str([c]))
  {
    assert Upper([c]) == [UpperChar(c)];
    SingleCharContains(Letters, UpperChar(c));
    assert !IsDigit([c]) by {
      assert !IsDigitChar([c][0]);
    }
  }

  /** One-character names: a hexadecimal digit of either case names registers
      0 to 14, "F" (or "f") raises, and any other character but "v" is kept. */
  lemma OneCharacterName(c: char)
    requires LowerChar(c) != 'v'
    ensures RegisterNumber(c).Some? && RegisterNumber(c).value < 15 ==> TransformKey(Str([c])) == Ok(Int(RegisterNumber(c).value))
    ensures RegisterNumber(c) == Some(15) ==> TransformKey(Str([c])) == Raise(ValueError)
    ensures RegisterNumber(c).None? ==> TransformKey(Str([c])) == Ok(Str([c]))
  {
    assert DropPrefix([c]) == Ok([c]);
    if IsDigitChar(c) {
      DigitName(c);
    } else if UpperChar(c) in Letters {
      LetterName(c);
    } else {
      OtherName(c);
    }
  }

  /** A leading `v` or `V` is dropped, so "V7", "v7" and "7" name the same
      register, and "VF" raises like "F". */
  lemma Prefixed(p: char, c: char)
    requires LowerChar(p) == 'v' && LowerChar(c) != 'v'
    ensures TransformKey(Str([p, c])) == TransformKey(Str([c]))
  {
    assert DropPrefix([p, c]) == Ok([c]);
    assert DropPrefix([c]) == Ok([c]);
  }

  /** Every register of the default file is named by its hexadecimal digit,
      with or without a `V` or `v` in front. */
  lemma RegisterNames(n: nat)
    requires n < DefaultCount
    ensures TransformKey(Str([HexDigits[n]])) == Ok(Int(n))
    ensures TransformKey(Str(['V', HexDigits[n]])) == Ok(Int(n))
    ensures TransformKey(Str(['v', HexDigits[n]])) == Ok(Int(n))
  {
    var c := HexDigits[n];
    HexDigitsRoundTrip(n, c);
    assert UpperChar(c) == c;
    OneCharacterName(c);
    Prefixed('V', c);
    Prefixed('v', c);
  }

  /** A bare "v" has no second character to keep. */
  lemma BarePrefix()
    ensures TransformKey(Str("v")) == Raise(IndexError)
    ensures TransformKey(Str("V")) == Raise(IndexError)
  {
  }

  /** Reading a key after setting it gives the value set; other keys keep
      their values. */
  lemma GetAfterSet(reg: Registry, key: Value, other: Value, value: int)
    requires Set(reg, key, value).Ok?
    ensures Get(Set(reg, key, value).value, key) == Ok(value)
    ensures TransformKey(other).Ok? && TransformKey(other) != TransformKey(key) ==>
      Get(Set(reg, key, value).value, other) == Get(reg, other)
  {
  }

  /** Since the letter test is a substring test, the empty string and runs
      such as "AB" raise like "F". */
  lemma RunsRaise()
    ensures TransformKey(Str("")) == Raise(ValueError)
    ensures TransformKey(Str("AB")) == Raise(ValueError)
  {
    assert Letters[0..0] == "";
    assert Upper("AB") == Letters[0..2];
    OccurrenceIsContained(Letters, "", 0);
    OccurrenceIsContained(Letters, "AB", 0);
  }

  /** Two digits make one two-digit number. */
  lemma TwoDigitName(a: char, b: char)
    requires IsDigitChar(a) && IsDigitChar(b)
    ensures TransformKey(Str([a, b])) == Ok(Int(10 * DigitValue(a) + DigitValue(b)))
  {
    assert DropPrefix([a, b]) == Ok([a, b]);
    assert [a, b][..1] == [a] && [a][..0] == [];
    assert DecimalValue([a]) == DigitValue(a);
    assert DecimalValue([a, b]) == 10 * DecimalValue([a]) + DigitValue(b);
    assert IsDigit([a, b]);
    assert Translate([a, b]) == Ok(Int(DecimalValue([a, b])));
  }

  /** "12" names register twelve. */
  lemma DigitsExample()
    ensures TransformKey(Str("12")) == Ok(Int(12))
  {
    TwoDigitName('1', '2');
  }

  /** A string naming no register is a key of its own. */
  lemma OtherExample()
    ensures TransformKey(Str("GH")) == Ok(Str("GH"))
  {
    assert DropPrefix("GH") == Ok("GH");
    assert Upper("GH") == "GH";
    assert !Contains(Letters, "GH");
  }
}

=== FILE: strings.dfy ===
/** The string operations the emulator uses: substring tests, ASCII case
    mapping, `str.isdigit`, `int(str)` and hexadecimal digits. Only ASCII
    characters are given their Python meaning; see README.md. */
module Strings {
  import opened Python

  /** The upper-case hexadecimal digits, in value order. */
  const HexDigits: string := "0123456789ABCDEF"

  predicate StartsWith(s: string, prefix: string) {
    |prefix| <= |s| && s[..|prefix|] == prefix
  }

  /** Python's `needle in hay` on two strings. */
  function Contains(hay: string, needle: string): bool
    decreases |hay|
  {
    StartsWith(hay, needle) || (|hay| > 0 && Contains(hay[1..], needle))
  }

  /** `needle` occurs as a contiguous run of `hay` (the empty string occurs everywhere). */
  ghost predicate IsSubstring(needle: string, hay: string) {
    exists i, j :: 0 <= i <= j <= |hay| && hay[i..j] == needle
  }

  lemma ContainsIsSubstring(hay: string, needle: string)
    ensures Contains(hay, needle) <==> IsSubstring(needle, hay)
  {
    if Contains(hay, needle) {
      ContainsHasWitness(hay, needle);
    }
    if IsSubstring(needle, hay) {
      var i, j :| 0 <= i <= j <= |hay| && hay[i..j] == needle;
      OccurrenceIsContained(hay, needle, i);
    }
  }

  lemma {:induction false} ContainsHasWitness(hay: string, needle: string)
    requires Contains(hay, needle)
    ensures IsSubstring(needle, hay)
    decreases |hay|
  {
    if StartsWith(hay, needle) {
      assert hay[0..|needle|] == needle;
    } else {
      ContainsHasWitness(hay[1..], needle);
      var i, j :| 0 <= i <= j <= |hay[1..]| && hay[1..][i..j] == needle;
      assert hay[i + 1..j + 1] == needle;
    }
  }

  lemma {:induction false} OccurrenceIsContained(hay: string, needle: string, i: nat)
    requires i + |needle| <= |hay| && hay[i..i + |needle|] == needle
    ensures Contains(hay, needle)
    decreases i
  {
    if i == 0 {
      assert StartsWith(hay, needle);
    } else {
      assert hay[1..][i - 1..i - 1 + |needle|] == needle;
      OccurrenceIsContained(hay[1..], needle, i - 1);
    }
  }

  /** A one-character string occurs exactly when the character does. */
  lemma {:induction false} SingleCharContains(hay: string, c: char)
    ensures Contains(hay, [c]) <==> c in hay
    decreases |hay|
  {
    if |hay| > 0 {
      SingleCharContains(hay[1..], c);
      assert hay == [hay[0]] + hay[1..];
    }
  }

  function LowerChar(c: char): char {
    if 'A' <= c <= 'Z' then (c as int + 32) as char else c
  }

  function UpperChar(c: char): char {
    if 'a' <= c <= 'z' then (c as int - 32) as char else c
  }

  /** `str.lower()` on ASCII text. */
  function Lower(s: string): (r: string)
    ensures |r| == |s|
    ensures forall i :: 0 <= i < |s| ==> r[i] == LowerChar(s[i])
  {
    seq(|s|, i requires 0 <= i < |s| => LowerChar(s[i]))
  }

  /** `str.upper()` on ASCII text. */
  function Upper(s: string): (r: string)
    ensures |r| == |s|
    ensures forall i :: 0 <= i < |s| ==> r[i] == UpperChar(s[i])
  {
    seq(|s|, i requires 0 <= i < |s| => UpperChar(s[i]))
  }

  /** No character of `s` is a lower-case ASCII letter. */
  predicate NoLowerCase(s: string) {
    forall i :: 0 <= i < |s| ==> !('a' <= s[i] <= 'z')
  }

  /** `upper()` leaves a string without lower-case letters as it is. */
  lemma UpperUnchanged(s: string)
    requires NoLowerCase(s)
    ensures Upper(s) == s
  {
  }

  predicate IsDigitChar(c: char) {
    '0' <= c <= '9'
  }

  /** `str.isdigit()` on ASCII text: non-empty and every character a digit. */
  predicate IsDigit(s: string) {
    |s| > 0 && forall i :: 0 <= i < |s| ==> IsDigitChar(s[i])
  }

  /** `int(s)` for a string of decimal digits. */
  function DecimalValue(s: string): nat
    requires forall i :: 0 <= i < |s| ==> IsDigitChar(s[i])
  {
    if |s| == 0 then 0
    else 10 * DecimalValue(s[..|s| - 1]) + DigitValue(s[|s| - 1])
  }

  function DigitValue(c: char): (r: nat)
    requires IsDigitChar(c)
    ensures r < 10
  {
    c as int - '0' as int
  }

  /** The value of one hexadecimal digit, upper case only. */
  function HexValue(c: char): Option<nat> {
    if '0' <= c <= '9' then Some(c as int - '0' as int)
    else if 'A' <= c <= 'F' then Some(c as int - 'A' as int + 10)
    else None
  }

  /** `HexDigits` and `HexValue` are inverse to each other. */
  lemma HexDigitsRoundTrip(n: nat, c: char)
    ensures n < 16 ==> HexValue(HexDigits[n]) == Some(n)
    ensures HexValue(c) == Some(n) ==> n < 16 && HexDigits[n] == c
  {
  }
}

=== FILE: word.dfy ===
/** The `Word` value type: a sixteen-bit unsigned value, as two bytes or four
    nibbles. A `Word` operand takes part through its `value`. */
module Words {
  import opened Bits
  import opened Python
  import Nibbles
  import Bytes

  type Word = v: int | 0 <= v < 0x1_0000

  /** `Word(value)`: only the low sixteen bits are kept. */
  function Of(value: int): (r: Word)
    ensures r == value % 0x1_0000
    ensures 0 <= value < 0x1_0000 ==> r == value
  {
    Mask16(value);
    And(value, 0xFFFF)
  }

  /** `get_high_byte`: `(value & 0xFF00) >> 8`. */
  function HighByte(w: Word): (r: Bytes.Byte)
    ensures r == w / 256
  {
    HighFields(w);
    Bytes.Of(ShiftRight(And(w, 0xFF00), 8))
  }

  /** On a sixteen-bit value, the top masks need no remainder. */
  lemma HighFields(w: Word)
    ensures ShiftRight(And(w, 0xF000), 12) == w / 4096
    ensures ShiftRight(And(w, 0xFF00), 8) == w / 256
  {
    FieldF000(w);
    FieldFF00(w);
    DivModUnique(w / 4096, 16, 0, w / 4096);
    DivModUnique(w / 256, 256, 0, w / 256);
  }

  /** `get_low_byte`: `value & 0x00FF`. */
  function LowByte(w: Word): (r: Bytes.Byte)
    ensures r == w % 256
  {
    Mask8(w);
    Bytes.Of(And(w, 0x00FF))
  }

  /** `get_first_nibble`: `(value & 0xF000) >> 12`. */
  function FirstNibble(w: Word): (r: Nibbles.Nibble)
    ensures r == w / 4096
  {
    HighFields(w);
    Nibbles.Of(ShiftRight(And(w, 0xF000), 12))
  }

  /** `get_second_nibble`: `(value & 0x0F00) >> 8`. */
  function SecondNibble(w: Word): (r: Nibbles.Nibble)
    ensures r == (w / 256) % 16
  {
    FieldF00(w);
    Nibbles.Of(ShiftRight(And(w, 0x0F00), 8))
  }

  /** `get_third_nibble`: `(value & 0x00F0) >> 4`. */
  function ThirdNibble(w: Word): (r: Nibbles.Nibble)
    ensures r == (w / 16) % 16
  {
    FieldF0(w);
    Nibbles.Of(ShiftRight(And(w, 0x00F0), 4))
  }

  /** `get_fourth_nibble`: `value & 0x000F`. */
  function FourthNibble(w: Word): (r: Nibbles.Nibble)
    ensures r == w % 16
  {
    Mask4(w);
    Nibbles.Of(And(w, 0x000F))
  }

  /** `Word(x & 0xFFFF)`, the form the arithmetic operators return: the mask
      before the constructor, which masks again. */
  function OfMasked(x: int): (r: Word)
    ensures r == x % 0x1_0000
  {
    Mask16(x);
    assert Of(x % 0x1_0000) == x % 0x1_0000;
    Of(And(x, 0xFFFF))
  }

  /** `word + other`, wrapping modulo 65536. */
  function Add(w: Word, other: int): (r: Word)
    ensures r == (w + other) % 0x1_0000
  {
    OfMasked(w + other)
  }

  /** `word - other`: the absolute difference, kept to sixteen bits. */
  function Sub(w: Word, other: int): (r: Word)
    ensures r == Abs(w - other) % 0x1_0000
  {
    OfMasked(Abs(w - other))
  }

  /** `other + word`: Python delegates to `Add`. */
  function RAdd(w: Word, other: int): (r: Word)
    ensures r == (other + w) % 0x1_0000
  {
    Add(w, other)
  }

  /** `other - word`: Python delegates to `Sub`, so the operands are not swapped. */
  function RSub(w: Word, other: int): (r: Word)
    ensures r == Abs(other - w) % 0x1_0000
  {
    Sub(w, other)
  }

  /** `word & other`. */
  function BitAnd(w: Word, other: int): (r: Word)
    ensures r <= w
    ensures 0 <= other ==> r <= other
  {
    Of(And(w, other))
  }

  /** `word == other`: a word equals only an `int` in 0..65535, and only the
      one it is built from. */
  function Eq(w: Word, other: int): (r: bool)
    ensures r <==> 0 <= other < 0x1_0000 && Of(other) == w
  {
    w == other
  }

  /** `word < other`: every word is below 65536 and none is below 1. */
  function Lt(w: Word, other: int): (r: bool)
    ensures 0x1_0000 <= other ==> r
    ensures other <= 0 ==> !r
    ensures r ==> !Eq(w, other)
  {
    w < other
  }

  /** The contracts of `Of`, `OfMasked` and the getters at one argument: the
      worked examples below use these facts rather than unfold a mask on a
      literal. */
  lemma OfAt(x: int, r: int)
    requires r == x % 0x1_0000
    ensures Of(x) == r
  {
  }

  lemma OfMaskedAt(x: int, r: int)
    requires r == x % 0x1_0000
    ensures OfMasked(x) == r
  {
  }

  lemma BytesAt(w: Word, high: int, low: int)
    requires high == w / 256 && low == w % 256
    ensures HighByte(w) == high && LowByte(w) == low
  {
  }

  lemma NibblesAt(w: Word, n1: int, n2: int, n3: int, n4: int)
    requires n1 == w / 4096 && n2 == (w / 256) % 16 && n3 == (w / 16) % 16 && n4 == w % 16
    ensures FirstNibble(w) == n1 && SecondNibble(w) == n2 && ThirdNibble(w) == n3 && FourthNibble(w) == n4
  {
  }

  /** The two bytes recombine into the word. */
  lemma ByteSplit(w: Word)
    ensures 256 * HighByte(w) + LowByte(w) == w
  {
  }

  /** The four nibbles recombine into the word. */
  lemma NibbleSplit(w: Word)
    ensures 4096 * FirstNibble(w) + 256 * SecondNibble(w) + 16 * ThirdNibble(w) + FourthNibble(w) == w
  {
    FourNibbles(w);
  }

  /** The byte getter examples of the word tests: `0xABCD` splits into the
      bytes AB and CD. */
  lemma ByteExamples()
    ensures HighByte(0xABCD) == 0xAB && LowByte(0xABCD) == 0xCD
  {
    BytesAt(0xABCD, 0xAB, 0xCD);
  }

  /** The nibble getter examples of the word tests: `0xABCD` splits into the
      nibbles A, B, C, D. */
  lemma NibbleExamples()
    ensures FirstNibble(0xABCD) == 0xA && SecondNibble(0xABCD) == 0xB
    ensures ThirdNibble(0xABCD) == 0xC && FourthNibble(0xABCD) == 0xD
  {
    NibblesAt(0xABCD, 0xA, 0xB, 0xC, 0xD);
  }

  /** Addition does not depend on the side of the operand. */
  lemma AddCommutes(a: Word, b: Word)
    ensures Add(a, b) == Add(b, a) && RAdd(a, b) == Add(a, b)
  {
  }

  /** The addition examples of the word tests; `0xFFFF + 1` wraps to zero. */
  lemma AddExamples()
    ensures Add(0x1234, 0x5678) == 0x68AC && Add(0xFFFF, 1) == 0 && Add(0x1234, 1) == 0x1235
    ensures RAdd(0x1234, 1) == 0x1235
  {
    OfMaskedAt(0x68AC, 0x68AC);
    OfMaskedAt(0x1_0000, 0);
    OfMaskedAt(0x1235, 0x1235);
  }

  /** Subtraction is symmetric and yields zero exactly on equal words. */
  lemma SubSymmetric(a: Word, b: Word)
    ensures Sub(a, b) == Sub(b, a) == RSub(b, a)
    ensures Sub(a, b) == 0 <==> a == b
  {
    assert Abs(a - b) == Abs(b - a);
    assert Abs(a - b) < 0x1_0000;
  }

  /** The subtraction examples of the word tests. `1 - Word(0xFFFF)` becomes
      `Word(0xFFFF) - 1`, so it is `0xFFFE`, not a wrap to 2. */
  lemma SubExamples()
    ensures Sub(0x1234, 0x5678) == 0x4444 && Sub(0xFFFF, 1) == 0xFFFE
    ensures RSub(0xFFFF, 1) == 0xFFFE
  {
    OfMaskedAt(0x4444, 0x4444);
    OfMaskedAt(0xFFFE, 0xFFFE);
  }

  /** A word built from an `int` equals it exactly when it fits in sixteen
      bits; `==` and `<` compare values. */
  lemma Construction(value: int, a: Word, b: Word)
    ensures Eq(Of(value), value) <==> 0 <= value < 0x1_0000
    ensures Lt(a, b) || Eq(a, b) || Lt(b, a)
    ensures !(Lt(a, b) && Lt(b, a))
  {
  }

  /** Between words, `<` is a strict total order and `==` is the equality it
      leaves open; `Word` defines no `<=`, so none is derived. */
  lemma TotalOrder(a: Word, b: Word, c: Word)
    ensures !Lt(a, a)
    ensures Lt(a, b) && Lt(b, c) ==> Lt(a, c)
    ensures Lt(a, b) ==> !Lt(b, a)
    ensures Lt(a, b) || Eq(a, b) || Lt(b, a)
    ensures Eq(a, b) <==> a == b
    ensures a < 0xFFFF ==> Lt(a, a + 1)
  {
  }

  /** Between words, `<` is the order of the high bytes, and of the low
      bytes where the high bytes agree. */
  lemma LtByBytes(a: Word, b: Word)
    ensures Lt(a, b) <==> HighByte(a) < HighByte(b) || (HighByte(a) == HighByte(b) && LowByte(a) < LowByte(b))
  {
    ByteSplit(a);
    ByteSplit(b);
  }

  /** A word built from 0x10000 is zero. */
  lemma ConstructionExamples()
    ensures Of(0x1_0000) == 0 && Of(0x1234) == 0x1234
  {
    OfAt(0x1_0000, 0);
    OfAt(0x1234, 0x1234);
  }
}
